=== FILE: README.md ===
# Agentic storefront: a Dafny model of the orchestration core

The system puts a chat front end over an online boutique. Three cooperating services are involved:

- **Orchestrator** (`orchestrator.py`). It takes a shopper's sentence and asks a language model for a tool decision (`{"tool": ..., "args": ...}`). It repairs the model's JSON, checks the decision and calls the order agent. After an order it checks the product and quantity once more and hands the payment to the payment agent.
- **Order agent** (`order_agent_mcp.py`). It serves two tools, `listProducts` and `placeOrder`, over the storefront. It keeps a five-minute catalog cache and an in-memory order log.
- **Payment agent** (`payment_ai_agent.py`). It asks a language model, with up to three attempts, to turn an order context into a payment request. It posts that request to the **payment backend** (`payment_server.py`), a stub that echoes the request with a constant transaction id. Every outcome is wrapped in an agent-to-agent message.

Language models, HTTP answers, clocks and `json.loads` are parameters of the model. Model output is an arbitrary string. `json.loads` is an arbitrary partial function `string -> Option<Json>`. Each HTTP exchange is an abstract outcome: unreachable, or a status with a body. Money is in integer cents.

Modules:

- `Text`: the Python string operations used.
- `Json`
- `Shop`: products and order entries.
- `JsonRepair`: `safe_json_parse`.
- `Intent`: the orchestrator's decision handling.
- `Orchestrator`: the run block.
- `Catalog`: one catalog refresh.
- `OrderAgent`: the tool registry, cookie extraction, and a `Server` class holding the cache and the order log.
- `PaymentAgent`
- `PaymentServer`

Some behaviours of the code are easy to miss. The model keeps them as written:

- Tools are matched by their literal names, `listProducts` and `placeOrder`.
- The payment agent passes the amount the model produced to the backend without checking it.
- The orchestrator looks only at the HTTP status of the payment agent's answer. That agent answers every failure with an error message at status 200, so a failed payment is reported as processed, with transaction id "Unknown" (`Orchestrator.FailedPaymentReportedAsProcessed`).
- The quantity check runs only after the order has been placed (`Orchestrator.Run`, last ensures).

## Model

| member | source | states |
|---|---|---|
| Text.Strip | orchestrator.py:162 | `strip()` removes whitespace (the full `isspace` set) from both ends only; the result is the slice of the input between the two whitespace runs |
| Text.Split | orchestrator.py:302 | `split()` yields only non-empty runs of non-whitespace |
| Text.SplitNothing | orchestrator.py:302 | `split()` yields nothing exactly for a string made only of whitespace |
| Text.SplitFirstWord | orchestrator.py:302 | `split()` of whitespace, then a word, then text that is empty or starts with whitespace, is that word followed by the split of the rest; with `SplitNothing` this fixes the result for every string |
| Text.SplitJoin | orchestrator.py:302-312 | splitting the single-space join of words gives the same words back |
| Text.JoinSingleSpaced | orchestrator.py:312 | the single-space join of words has whitespace only as single ` ` characters between two words, none at either end |
| Text.Find | orchestrator.py:171 | `find` gives the first index holding the character, or none when it is absent |
| Text.RFind | orchestrator.py:172 | `rfind` gives the last index holding the character, or none when it is absent |
| Text.Count | orchestrator.py:181-182 | `count` of a character is its multiplicity in the text |
| Text.ReplaceRemovesFence | payment_ai_agent.py:93 | after every "```" is replaced by nothing, no "```" remains |
| Text.SplitOnSecond | order_agent_mcp.py:352 | the second part of a split is the text between the first separator and the next one (or the end) |
| Text.SplitOn | order_agent_mcp.py:349 | `split(sep)` gives one more part than there are separators, and no part holds the separator |
| Text.SplitOnJoin | order_agent_mcp.py:349 | joining the parts with the separator gives the text back |
| Text.ContainsInPart | order_agent_mcp.py:346-351 | a pattern without the separator that occurs in the text occurs inside one of the parts |
| Text.PartInContains | order_agent_mcp.py:346-351 | a pattern occurring in a part occurs in the text |
| Json.Get | payment_ai_agent.py:149-150 | `dict.get` finds a value exactly when the key is present, and it is that key's value |
| Shop.IdsOf | orchestrator.py:331 | the id list has one entry per product, in order |
| Shop.FirstWithId | order_agent_mcp.py:313 | the lookup finds nothing exactly when no product has the requested id; what it finds is a listed product with that id |
| Shop.FirstWithIdIsFirst | order_agent_mcp.py:313 | the product found is the earliest one with that id |
| JsonRepair.PySlice | orchestrator.py:174 | a Python slice is the subsequence for ordered bounds and empty otherwise |
| JsonRepair.BraceSlice | orchestrator.py:171-174 | the second candidate exists exactly when both `{` and `}` occur, and it runs from the first `{` to the last `}` inclusive (empty if the last `}` comes first) |
| JsonRepair.BalancedBraces | orchestrator.py:181-184 | the third candidate exists exactly when there are more `{` than `}`, appends exactly the difference in `}`, and leaves the counts equal |
| JsonRepair.ClosingFixBalances | orchestrator.py:184 | appending n `}` adds n to the `}` count and leaves the `{` count unchanged |
| JsonRepair.SafeJsonParse | orchestrator.py:158-198 | input whose stripped form parses is returned as that parse (repair is the identity on valid JSON); every failure is the "after repairs" error carrying the stripped text |
| JsonRepair.FirstParseSpec | orchestrator.py:164-196 | "first success wins": no result exactly when no candidate parses, else the parse of a candidate all of whose predecessors fail |
| JsonRepair.FirstCandidate | orchestrator.py:164-196 | the first-success search over the candidate list tries the stripped text, brace slice, balanced text and regex match in that order |
| JsonRepair.SafeJsonParseIsFirstSuccess | orchestrator.py:158-198 | the repair returns exactly the first successful candidate parse and raises exactly when none parses |
| JsonRepair.RegexMatchIsBraceSlice | orchestrator.py:171-194 | the greedy DOTALL `\{.*\}` first match exists exactly when the first `{` precedes the last `}`, and then is the brace slice |
| JsonRepair.RegexNeverRescues | orchestrator.py:171-196 | when the brace slice failed to parse, the regex fallback cannot parse either |
| JsonRepair.RepairWithoutRegex | orchestrator.py:158-198 | the repair behaves exactly like its first three attempts alone |
| PaymentServer.CreatePayment | payment_server.py:13-20 | status is always "success", order id, amount and method are echoed, transaction id is always "txn_12345" |
| PaymentServer.EchoRoundTrip | payment_server.py:7-20 | reading the response as a request yields the original request |
| PaymentServer.Endpoint | payment_server.py:12-20 | status 200 with the echo exactly for a body with the three typed fields, 422 otherwise |
| PaymentAgent.Clean | payment_ai_agent.py:92-94 | cleaned model text holds no "```" |
| PaymentAgent.Attempt | payment_ai_agent.py:74-101 | an attempt succeeds exactly when the model replies with non-empty text whose cleaned form parses, and then yields that cleaned text |
| PaymentAgent.Trace | payment_ai_agent.py:61 | there are as many attempt slots as `max_retries` (none when it is not positive) |
| PaymentAgent.TraceSlot | payment_ai_agent.py:61-101 | slot k of the trace is the result of the attempt on the model's answer at attempt k |
| PaymentAgent.SettleSpec | payment_ai_agent.py:103-116 | the loop raises exactly when every remaining attempt fails, otherwise returns the first success |
| PaymentAgent.InferSpecOutcome | payment_ai_agent.py:57-116 | `gemini_infer` returns nothing only for non-positive `max_retries`, raises exactly when every attempt fails, and returns only parseable text without "```" |
| PaymentAgent.TryAttempt | payment_ai_agent.py:62-101 | one loop iteration computes the attempt result |
| PaymentAgent.SettleCallsSpec | payment_ai_agent.py:61-116 | from a given attempt on, the loop calls the model within the remaining attempts, every call but the last failed, and the last call is the success returned or the last attempt's failure |
| PaymentAgent.InferCallsSpec | payment_ai_agent.py:57-116 | `gemini_infer` calls the model at most `max_retries` times, stops at the first success, raises only after the last allowed attempt failed, and calls it not at all exactly when nothing is returned |
| PaymentAgent.GeminiInfer | payment_ai_agent.py:57-116 | the retry loop yields the specified outcome after the specified number of model calls, and waits between attempts but never after the last |
| PaymentAgent.ErrorReply | payment_ai_agent.py:178-198 | an error reply is `error`/`payment_failed` from the agent with payload `{"error": ...}`, echoing the conversation id |
| PaymentAgent.QueryOf | payment_ai_agent.py:145-150 | the context defaults to `{}`; order id and total are read from it; a non-object context fails |
| PaymentAgent.Answer | payment_ai_agent.py:155-187 | the reply is a response exactly when the inferred request parses and the backend answers 200 with a JSON object, and then its payload is that object verbatim |
| PaymentAgent.ProcessPayment | payment_ai_agent.py:141-198 | never raises: the sender is the agent, the conversation id is echoed, a response is `payment_processed`, everything else is an error reply |
| PaymentAgent.BackendRejectionIsReported | payment_ai_agent.py:163-167 | a non-200 backend answer becomes an error reply naming the status and the backend text |
| PaymentAgent.ModelFailureIsReported | payment_ai_agent.py:155-187 | when every model attempt fails, the reply carries the retry loop's final message |
| PaymentAgent.HandlePaymentLegacy | payment_ai_agent.py:201-210 | the legacy endpoint is `process_payment` on a `request` from `legacy_client` without a conversation id |
| PaymentAgent.Dump | payment_ai_agent.py:15-20 | a dumped message is an object with the five envelope keys, its payload carried as an object |
| PaymentAgent.Load | payment_ai_agent.py:15-20 | a validated message has exactly the body's payload |
| PaymentAgent.DumpLoad | payment_ai_agent.py:15-20 | every message survives dumping and validation unchanged |
| Catalog.HtmlProduct | order_agent_mcp.py:220-225 | a scraped product keeps id, name and price, and gets the default description exactly when it has none |
| Catalog.FetchProducts | order_agent_mcp.py:43-248 | a JSON listing is taken as is; each distinct linked id is visited once and yields at most one product, from its own page; every JSON page and every scraped id is represented; a product repeating an earlier product's id always comes from a JSON product page |
| Catalog.GatheredDistinct | order_agent_mcp.py:108-228 | when no linked page is a JSON product page, a refresh never repeats an id |
| Catalog.GatheredAtMostOnePerId | order_agent_mcp.py:108 | a refresh from linked ids gathers no more products than there are distinct linked ids |
| OrderAgent.DiscoverTools | order_agent_mcp.py:278-296 | exactly two tools: `listProducts` with empty input and `placeOrder` with `product_id` and `quantity` |
| OrderAgent.CookieValue | order_agent_mcp.py:352 | the cookie value holds no `=` |
| OrderAgent.CookieValueBetween | order_agent_mcp.py:352 | the cookie value is the stripped text between the first `=` of the part and the next `=` (or the end of the part) |
| OrderAgent.FirstCookie | order_agent_mcp.py:349-353 | a cookie is found exactly when some part holds `shop_session-id=` |
| OrderAgent.FirstCookieIsFirst | order_agent_mcp.py:350-353 | the cookie found is the value of a part holding `shop_session-id=` that no earlier part holds |
| OrderAgent.FirstCookieAt | order_agent_mcp.py:350-353 | conversely, when part k is the first holding `shop_session-id=`, the cookie is part k's value |
| OrderAgent.SessionCookieFound | order_agent_mcp.py:344-353 | a cookie is found exactly when the header holds `shop_session-id=` |
| OrderAgent.ExtractSessionCookie | order_agent_mcp.py:344-353 | the search loop finds a cookie exactly when the header holds the marker, and it is the value of the first `;`-part holding the marker |
| OrderAgent.ConfirmedEntry | order_agent_mcp.py:395-411 | the entry is `confirmed`, copies product id and quantity, and uses "unknown"/"unknown"/0 for missing confirmation, tracking and total |
| OrderAgent.Server.constructor | order_agent_mcp.py:30-31 | the module starts with no cache, no timestamp and an empty log |
| OrderAgent.Server.GetProducts | order_agent_mcp.py:34-266 | a fresh cache (younger than five minutes) is answered with no fetch; cache and timestamp are replaced together and only by a non-empty fetch; an empty fetch keeps both |
| OrderAgent.Server.ListProducts | order_agent_mcp.py:299-304 | the listing is the refreshed catalog; the cache is kept when fresh, replaced with its timestamp by a non-empty fetch, and kept by an empty one; the order log is untouched |
| OrderAgent.TryOrder | order_agent_mcp.py:313-422 | success exactly when the product is found, quantity is given, the cart answers 200, a non-empty session cookie is found and checkout succeeds, and then the entry is the confirmed one; an empty catalog is "product not found"; every failure is status 500 |
| OrderAgent.Server.PlaceOrder | order_agent_mcp.py:307-422 | the catalog is refreshed as in `list_products` (same cache rules), then the order goes through exactly as `TryOrder` states on that catalog; success appends exactly the returned entry; every failure leaves the log unchanged |
| Intent.NonIgnored | orchestrator.py:309 | the kept words are exactly the input words outside the ignore list |
| Intent.NonIgnoredAppend | orchestrator.py:309 | filtering a concatenation is the concatenation of the filtered parts, so order and repetitions are kept |
| Intent.NonIgnoredWord | orchestrator.py:309 | one word is kept exactly when it is not ignored; nothing yields nothing |
| Intent.ProductNameSpec | orchestrator.py:293-313 | no name exactly when every word is a "show" word or every word is ignored; a name is non-empty, splits back into the kept words, and has only single spaces between them as whitespace |
| Intent.ListNotice | orchestrator.py:317-322 | a notice appears exactly for a listing decision on a request naming a product; it says "not available" exactly when a purchase word occurs |
| Intent.ReadDecision | orchestrator.py:289-290 | a decision is read exactly from an object holding `tool` and `args` |
| Intent.ValidateDecision | orchestrator.py:325-338 | an order for an id missing from a 200 listing becomes `listProducts` with `{}`; a failed or non-200 validation leaves the decision unchanged |
| Intent.QuantityOf | orchestrator.py:418 | a quantity is comparable exactly when it is a number or a boolean; a number compares as itself, `True` as 1 and `False` as 0 |
| Intent.PrePaymentGuard | orchestrator.py:398-420 | payment proceeds exactly when the details listing answers 200, holds the product, and the quantity is positive; a refused details request and a non-200 answer are reported apart; a product missing from a 200 listing is an invalid product; arguments that are not an object, a missing `product_id`, or a listed product with a missing or non-number quantity are an unexpected error, and nothing else is; the quantity is rejected exactly when the product is listed and the quantity is a number (or boolean) not above 0 |
| Intent.PaymentEnvelope | orchestrator.py:441-458 | the payment request carries order id, product, quantity and total (price times quantity), with conversation id `order_<id>` |
| Intent.ReportPayment | orchestrator.py:460-471 | a 200 answer counts as processed, with the payload's transaction id or "Unknown"; any other status is a failure; a refused connection, and only that, is reported as the payment agent being unreachable |
| Orchestrator.Run | orchestrator.py:201-479 | only `listProducts` and `placeOrder` are ever invoked; a downgraded order invokes `listProducts` with `{}`; an order reaches payment only through the guard with the envelope above; each stop maps to its outcome, with a refused connection and a non-200 answer kept apart for the first listing, the tool call and the details listing |
| Orchestrator.WhitelistMatchesRegistry | orchestrator.py:342-344 | the orchestrator's two accepted tools are exactly those the order agent advertises |
| Orchestrator.EnvelopeReachesAgent | orchestrator.py:441-458 | the payment agent reads back the order id and total the orchestrator sent |
| Orchestrator.FailedPaymentReportedAsProcessed | orchestrator.py:460-466 | an error reply from the payment agent, arriving at status 200, is reported as processed with transaction id "Unknown" |
| Orchestrator.StubPaymentReported | orchestrator.py:460-466 | a request accepted by the stub backend is reported with transaction id "txn_12345" |

## Left out

- Streamlit rendering. Only the notice and the outcome category of a run are modelled, not the messages shown.
- The capability discovery in the orchestrator and `get_capabilities` in the payment agent. These are static display data.
- Gemini calls, model listing and model selection. Model output is an arbitrary string or an abstract outcome per attempt.
- The prompt wording, including the product list text built for the prompt (orchestrator.py:218-285) and the payment prompt.
- HTTP transport, sessions and `asyncio.sleep`. Responses are abstract outcomes. The wait between attempts is counted but not timed.
- Storefront scraping with BeautifulSoup and regexes. Each page arrives already classified. The checkout page's confirmation, tracking and total matches are modelled as found or not found.
- Floating point. Prices and totals are integer cents, so `float(...)` conversions and the two-decimal display are not modelled.
- The internals of `json.loads`. Exception and decoder messages are paraphrased strings.
- The payment request's `"message"` text. It formats a float and is never used by the payment agent.
- Pydantic's lax coercions (for example an integer given as a string). Validation is modelled with strict types.
- `lower()`, which is modelled for ASCII letters only.
- Concurrent requests against the module-level cache and order log. The code has no locking.
- Exceptions that only a malformed product record could raise, such as a missing `"name"` key in the listing display. Products are typed records.
- Catalog.FetchProducts: the order of the gathered products is not fixed, because the source iterates over a set.
- Intent.ReportPayment: payment request failures other than a refused connection (a timeout, for example) are not a separate input. In the source they end in the same "unexpected error" report as an undecodable answer.

=== FILE: catalog.dfy ===
/** What one catalog refresh of the order agent gathers from the storefront. The page scraping
    itself is not modelled: the homepage and each product page arrive as already-classified
    outcomes. */
module Catalog {
  import opened Shop

  /** How long a cached catalog stays fresh, in microseconds (five minutes). */
  const CacheTimeout: int := 5 * 60 * 1000000

  /** The homepage: a JSON product listing, the product ids linked from the page (outside the
      recommendations block, in page order, possibly repeated), or nothing usable (an error
      status, a failed request, or JSON without a product list). */
  datatype Homepage = HomeListing(products: seq<Product>) | HomeLinks(ids: seq<string>) | HomeUnusable

  /** A product page: a JSON product object, the name, price and description text scraped
      from HTML, or nothing usable (error status, missing price, failed request). */
  datatype Detail =
    | DetailJson(product: Product)
    | DetailHtml(name: string, priceCents: int, description: string)
    | DetailUnusable

  const NoDescription: string := "No description available"

  /** The record built from a scraped product page; an empty description gets the default. */
  function HtmlProduct(id: string, name: string, priceCents: int, description: string): (p: Product)
    ensures p.id == id && p.name == name && p.priceCents == priceCents
    ensures p.description == NoDescription <==> description == "" || description == NoDescription
  {
    Product(id, name, priceCents, if description != "" then description else NoDescription)
  }

  /** Product page `d` of id `id` contributes product `p`. */
  predicate Yields(id: string, d: Detail, p: Product) {
    d == DetailJson(p) || (d.DetailHtml? && p == HtmlProduct(id, d.name, d.priceCents, d.description))
  }

  /** `any(p.get('id') == id for p in products)`. */
  predicate HasId(products: seq<Product>, id: string) {
    exists k :: 0 <= k < |products| && products[k].id == id
  }

  /** Appending keeps every id already present. */
  lemma HasIdAppend(products: seq<Product>, p: Product)
    ensures forall id :: HasId(products, id) ==> HasId(products + [p], id)
  {
    forall id | HasId(products, id) ensures HasId(products + [p], id) {
      var k :| 0 <= k < |products| && products[k].id == id;
      assert (products + [p])[k].id == id;
    }
  }

  /** No two products share an id. */
  predicate DistinctIds(products: seq<Product>) {
    forall i, j :: 0 <= i < j < |products| ==> products[i].id != products[j].id
  }

  /** A product that repeats an earlier product's id came from a JSON product page. */
  ghost predicate RepeatsOnlyFromJson(ids: seq<string>, detail: string -> Detail, products: seq<Product>) {
    forall i, j :: 0 <= i < j < |products| && products[i].id == products[j].id ==>
      exists id :: id in ids && detail(id) == DetailJson(products[j])
  }

  /** Product `k` of `products` came from the page of linked id `sources[k]`, and no linked
      id is visited twice: `for product_id in set(product_ids)`. */
  ghost predicate VisitedOnce(ids: seq<string>, detail: string -> Detail, products: seq<Product>, sources: seq<string>) {
    && |sources| == |products|
    && (forall k :: 0 <= k < |sources| ==> sources[k] in ids && Yields(sources[k], detail(sources[k]), products[k]))
    && (forall i, j :: 0 <= i < j < |sources| ==> sources[i] != sources[j])
  }

  /** Visiting one more id, not visited before, keeps every id visited once. */
  lemma VisitOnceMore(ids: seq<string>, detail: string -> Detail, products: seq<Product>, sources: seq<string>,
                      remaining: set<string>, id: string, p: Product)
    requires VisitedOnce(ids, detail, products, sources)
    requires forall k :: 0 <= k < |sources| ==> sources[k] !in remaining
    requires id in ids && id in remaining && Yields(id, detail(id), p)
    ensures VisitedOnce(ids, detail, products + [p], sources + [id])
    ensures forall k :: 0 <= k < |sources + [id]| ==> (sources + [id])[k] !in remaining - {id}
  {
  }

  /** What a refresh may gather: a JSON listing as it is; nothing from an unusable page; from
      linked ids, one product at most per distinct id, yielded by that id's page, every JSON
      product page, a product for every scraped page's id, and a repeated id only on a product
      that a JSON product page brought. */
  ghost predicate Gathered(home: Homepage, detail: string -> Detail, products: seq<Product>) {
    && (home.HomeListing? ==> products == home.products)
    && (home.HomeUnusable? ==> products == [])
    && (home.HomeLinks? ==>
         && (exists sources :: VisitedOnce(home.ids, detail, products, sources))
         && (forall id :: id in home.ids && detail(id).DetailJson? ==> detail(id).product in products)
         && (forall id :: id in home.ids && detail(id).DetailHtml? ==> HasId(products, id))
         && RepeatsOnlyFromJson(home.ids, detail, products))
  }

  /** The products one refresh gathers. A JSON listing is taken as it is. Linked ids are
      visited once each, in the unspecified order of a set; a JSON product page is appended
      as it is, a scraped page only when no gathered product has its id yet. */
  method FetchProducts(home: Homepage, detail: string -> Detail) returns (products: seq<Product>)
    ensures Gathered(home, detail, products)
  {
    match home
    case HomeListing(listing) =>
      products := listing;
    case HomeUnusable =>
      products := [];
    case HomeLinks(ids) =>
      products := [];
      ghost var sources: seq<string> := [];
      var remaining := set id | id in ids;
      while remaining != {}
        invariant remaining <= set id | id in ids
        invariant VisitedOnce(ids, detail, products, sources)
        invariant forall k :: 0 <= k < |sources| ==> sources[k] !in remaining
        invariant forall id :: id in ids && id !in remaining && detail(id).DetailJson? ==>
          detail(id).product in products
        invariant forall id :: id in ids && id !in remaining && detail(id).DetailHtml? ==> HasId(products, id)
        invariant RepeatsOnlyFromJson(ids, detail, products)
        decreases |remaining|
      {
        var id :| id in remaining;
        remaining := remaining - {id};
        match detail(id)
        case DetailJson(p) =>
          HasIdAppend(products, p);
          VisitOnceMore(ids, detail, products, sources, remaining + {id}, id, p);
          products, sources := products + [p], sources + [id];
          assert detail(id) == DetailJson(products[|products| - 1]);
        case DetailHtml(name, priceCents, description) =>
          var p := HtmlProduct(id, name, priceCents, description);
          if !HasId(products, id) {
            HasIdAppend(products, p);
            VisitOnceMore(ids, detail, products, sources, remaining + {id}, id, p);
            products, sources := products + [p], sources + [id];
            assert products[|products| - 1].id == id;
          }
        case DetailUnusable =>
      }
      assert VisitedOnce(ids, detail, products, sources);
  }

  /** When no linked page is a JSON product page, a refresh never repeats an id. */
  lemma GatheredDistinct(home: Homepage, detail: string -> Detail, products: seq<Product>)
    requires home.HomeLinks? && Gathered(home, detail, products)
    requires forall id :: id in home.ids ==> !detail(id).DetailJson?
    ensures DistinctIds(products)
  {
    forall i, j | 0 <= i < j < |products| ensures products[i].id != products[j].id {
      assert forall id :: id in home.ids ==> detail(id) != DetailJson(products[j]);
    }
  }

  /** A sequence without repeats has as many distinct elements as it has elements. */
  lemma {:induction false} DistinctCard(xs: seq<string>)
    requires forall i, j :: 0 <= i < j < |xs| ==> xs[i] != xs[j]
    ensures |set x | x in xs| == |xs|
  {
    if xs != [] {
      var t, last := xs[..|xs| - 1], xs[|xs| - 1];
      DistinctCard(t);
      assert xs == t + [last];
      assert (set x | x in xs) == (set x | x in t) + {last};
      assert last !in t by {
        forall i | 0 <= i < |t| ensures t[i] != last {
          assert t[i] == xs[i];
        }
      }
    }
  }

  /** A refresh from linked ids gathers at most one product per distinct linked id. */
  lemma GatheredAtMostOnePerId(home: Homepage, detail: string -> Detail, products: seq<Product>)
    requires home.HomeLinks? && Gathered(home, detail, products)
    ensures |products| <= |set id | id in home.ids|
  {
    var sources :| VisitedOnce(home.ids, detail, products, sources);
    DistinctCard(sources);
    var visited, linked := set x | x in sources, set id | id in home.ids;
    assert linked == visited + (linked - visited);
  }
}

=== FILE: intent.dfy ===
/** The orchestrator's handling of the language model's tool decision: reading it, the
    product-name heuristic and the notice chosen from it, the two-tool whitelist, the
    downgrade of an order for an unknown product, the checks made before payment, the payment
    request envelope and how the payment agent's answer is reported. */
module Intent {
  import opened Wrappers
  import opened Json
  import opened Text
  import opened Shop
  import opened JsonRepair
  import opened PaymentAgent

  /** Words that make a request a plain "show the catalog" request. */
  const ShowWords: set<string> := {"show", "products", "list", "all", "available"}

  /** Words dropped when looking for a product name. */
  const IgnoreWords: set<string> := {
    "show", "me", "get", "list", "display", "what", "do", "you", "have",
    "order", "buy", "purchase", "want", "need", "looking", "for", "a", "an", "the",
    "some", "few", "many", "please", "can", "could", "would", "like", "to"}

  /** Words whose presence marks a listing answer as a failed purchase. */
  const PurchaseWords: seq<string> := ["order", "buy", "purchase", "want"]

  /** The words that are not ignored, in order. */
  function NonIgnored(words: seq<string>): (r: seq<string>)
    ensures forall w :: w in r <==> w in words && w !in IgnoreWords
    ensures |r| <= |words|
  {
    if words == [] then []
    else if words[0] in IgnoreWords then NonIgnored(words[1..])
    else [words[0]] + NonIgnored(words[1..])
  }

  /** Filtering distributes over concatenation: each word is kept or dropped on its own. */
  lemma {:induction false} NonIgnoredAppend(a: seq<string>, b: seq<string>)
    ensures NonIgnored(a + b) == NonIgnored(a) + NonIgnored(b)
  {
    if a != [] {
      assert (a + b)[0] == a[0];
      assert (a + b)[1..] == a[1..] + b;
      NonIgnoredAppend(a[1..], b);
    } else {
      assert a + b == b;
    }
  }

  /** A single word is kept exactly when it is not ignored; nothing comes from nothing. */
  lemma NonIgnoredWord(w: string)
    ensures NonIgnored([]) == []
    ensures NonIgnored([w]) == (if w in IgnoreWords then [] else [w])
  {
    assert [w][1..] == [];
  }

  /** `extract_product_name`: nothing for a plain "show the catalog" request (including an
      empty one); otherwise the lowercased words that are not ignored, joined by single
      spaces, or nothing when none remain. */
  function ExtractProductName(input: string): Option<string> {
    var words := Split(Lower(input));
    if forall k :: 0 <= k < |words| ==> words[k] in ShowWords then None
    else
      var terms := NonIgnored(words);
      if terms != [] then Some(Join(terms)) else None
  }

  /** No name exactly when every word is a "show" word or every word is ignored; a name
      splits back into exactly the kept words, so it is non-empty, and its only whitespace
      is the single spaces between them. */
  lemma ProductNameSpec(input: string)
    ensures var words := Split(Lower(input));
      ExtractProductName(input).None? <==>
        (forall k :: 0 <= k < |words| ==> words[k] in ShowWords)
        || (forall k :: 0 <= k < |words| ==> words[k] in IgnoreWords)
    ensures ExtractProductName(input).Some? ==>
      Split(ExtractProductName(input).value) == NonIgnored(Split(Lower(input)))
      && ExtractProductName(input).value != ""
    ensures ExtractProductName(input).Some? ==> SingleSpaced(ExtractProductName(input).value)
  {
    var words := Split(Lower(input));
    var terms := NonIgnored(words);
    if terms == [] {
      assert forall k :: 0 <= k < |words| ==> words[k] in IgnoreWords by {
        forall k | 0 <= k < |words| ensures words[k] in IgnoreWords {
          assert words[k] in words;
        }
      }
    } else {
      var w := terms[0];
      assert w in words && w !in IgnoreWords;
    }
    if ExtractProductName(input).Some? {
      assert forall k :: 0 <= k < |terms| ==> IsWord(terms[k]) by {
        forall k | 0 <= k < |terms| ensures IsWord(terms[k]) {
          assert terms[k] in words;
        }
      }
      SplitJoin(terms);
      JoinSingleSpaced(terms);
    }
  }

  /** The notice shown before a catalog listing. */
  datatype Notice = NoNotice | ProductUnavailable(name: string) | ShowingAll

  const ListTool: Json := JStr("listProducts")
  const OrderTool: Json := JStr("placeOrder")

  /** The only two tools the orchestrator calls. */
  predicate IsKnownTool(tool: Json) {
    tool == ListTool || tool == OrderTool
  }

  /** A listing answer to a request that names a product reports that product unavailable
      when the request holds a purchase word, and otherwise says the whole catalog follows. */
  function ListNotice(tool: Json, input: string): (n: Notice)
    ensures n != NoNotice <==> tool == ListTool && ExtractProductName(input).Some?
    ensures n.ProductUnavailable? <==>
      n != NoNotice && exists k :: 0 <= k < |PurchaseWords| && Contains(Lower(input), PurchaseWords[k])
    ensures n.ProductUnavailable? ==> Some(n.name) == ExtractProductName(input)
  {
    match ExtractProductName(input)
    case Some(name) =>
      if tool != ListTool then NoNotice
      else if exists k :: 0 <= k < |PurchaseWords| && Contains(Lower(input), PurchaseWords[k])
      then ProductUnavailable(name)
      else ShowingAll
    case None => NoNotice
  }

  /** The model's decision: which tool to call, with which arguments. */
  datatype Decision = Decision(tool: Json, args: Json)

  /** `decision["tool"]` and `decision["args"]`: both keys of an object, else an error. */
  function ReadDecision(v: Json): (d: Option<Decision>)
    ensures d.Some? <==> v.JObj? && "tool" in v.fields && "args" in v.fields
    ensures d.Some? ==> d.value == Decision(v.fields["tool"], v.fields["args"])
  {
    match v
    case JObj(f) => if "tool" in f && "args" in f then Some(Decision(f["tool"], f["args"])) else None
    case _ => None
  }

  /** The decision read from the model's raw answer, after repair. */
  function DecisionOf(aiResponse: string, parse: Parser): Option<Decision> {
    match SafeJsonParse(aiResponse, parse)
    case Success(v) => ReadDecision(v)
    case Failure(_) => None
  }

  /** What the order agent answers to a tool call: a failed request, or a status with the
      `"products"` list (empty when absent) and the `"order"` entry when present. */
  datatype AgentReply = Unreachable | Reply(status: int, products: seq<Product>, order: Option<OrderEntry>)

  /** `args.get("product_id") not in valid_ids`: the id is absent, not a string, or not listed. */
  predicate UnlistedId(fields: map<string, Json>, ids: seq<string>) {
    !("product_id" in fields && fields["product_id"].JStr? && fields["product_id"].s in ids)
  }

  /** An order decision is downgraded when a fresh listing answered with status 200 and the
      arguments are an object whose `product_id` that listing does not hold; a failed request,
      a non-200 status or arguments that are not an object (whose `.get` raises) leave it. */
  predicate Downgrades(d: Decision, validation: AgentReply) {
    d.tool == OrderTool && validation.Reply? && validation.status == 200 && d.args.JObj?
    && UnlistedId(d.args.fields, IdsOf(validation.products))
  }

  /** The check of an order decision against a fresh listing: a downgraded order becomes a
      listing request without arguments, any other decision is kept. */
  method ValidateDecision(d: Decision, validation: AgentReply) returns (checked: Decision, downgraded: bool)
    ensures downgraded <==> Downgrades(d, validation)
    ensures downgraded ==> checked == Decision(ListTool, JObj(map[]))
    ensures !downgraded ==> checked == d
  {
    checked, downgraded := d, false;
    if d.tool == OrderTool && validation.Reply? && validation.status == 200 {
      var validIds := IdsOf(validation.products);
      if d.args.JObj? && UnlistedId(d.args.fields, validIds) {
        checked := Decision(ListTool, JObj(map[]));
        downgraded := true;
      }
    }
  }

  /** `args["quantity"] <= 0` needs a number; a boolean counts as 0 or 1. */
  function QuantityOf(j: Json): (q: Option<int>)
    ensures q.Some? <==> j.JNum? || j.JBool?
    ensures j.JNum? ==> q == Some(j.n)
    ensures j.JBool? ==> q == Some(if j.b then 1 else 0)
  {
    match j
    case JNum(n) => Some(n)
    case JBool(b) => Some(if b then 1 else 0)
    case _ => None
  }

  /** How the checks made after an order was placed, before payment, end. */
  datatype Guard =
    | ListingUnreachable
    | ListingRejected(status: int)
    | ProductNotListed
    | GuardError
    | QuantityRejected
    | Cleared(product: Product, quantity: int)

  /** The checks before payment: a fresh listing must come back with status 200 and hold the
      product, and the quantity must be positive. Arguments that are not an object, a missing
      product id (even when the listing is empty, because the message naming the unknown
      product reads the id), and a listed product with a missing or non-number quantity are
      an error. */
  function PrePaymentGuard(args: Json, details: AgentReply): (g: Guard)
    ensures g.Cleared? <==>
      && details.Reply? && details.status == 200
      && args.JObj? && "product_id" in args.fields
      && FirstWithId(details.products, args.fields["product_id"]).Some?
      && "quantity" in args.fields && QuantityOf(args.fields["quantity"]).Some?
      && QuantityOf(args.fields["quantity"]).value > 0
    ensures g.Cleared? ==>
      Some(g.product) == FirstWithId(details.products, args.fields["product_id"])
      && Some(g.quantity) == QuantityOf(args.fields["quantity"])
    ensures details.Reply? && details.status == 200 && details.products == [] ==>
      g == (if args.JObj? && "product_id" in args.fields then ProductNotListed else GuardError)
    ensures details.Unreachable? ==> g == ListingUnreachable
    ensures details.Reply? && details.status != 200 ==> g == ListingRejected(details.status)
    ensures
      (&& details.Reply? && details.status == 200 && args.JObj? && "product_id" in args.fields
       && FirstWithId(details.products, args.fields["product_id"]).None?)
      ==> g == ProductNotListed
    ensures g == QuantityRejected <==>
      && details.Reply? && details.status == 200
      && args.JObj? && "product_id" in args.fields
      && FirstWithId(details.products, args.fields["product_id"]).Some?
      && "quantity" in args.fields && QuantityOf(args.fields["quantity"]).Some?
      && QuantityOf(args.fields["quantity"]).value <= 0
    ensures g == GuardError <==>
      && details.Reply? && details.status == 200
      && (|| !args.JObj? || "product_id" !in args.fields
          || (&& FirstWithId(details.products, args.fields["product_id"]).Some?
              && ("quantity" !in args.fields || QuantityOf(args.fields["quantity"]).None?)))
  {
    if details.Unreachable? then ListingUnreachable
    else if details.status != 200 then ListingRejected(details.status)
    else if !args.JObj? || "product_id" !in args.fields then GuardError
    else match FirstWithId(details.products, args.fields["product_id"])
      case None => ProductNotListed
      case Some(product) =>
        if "quantity" !in args.fields || QuantityOf(args.fields["quantity"]).None? then GuardError
        else if QuantityOf(args.fields["quantity"]).value <= 0 then QuantityRejected
        else Cleared(product, QuantityOf(args.fields["quantity"]).value)
  }

  /** The payment request sent to the payment agent once the order is placed: the order's
      id, the product, the quantity as the model gave it and the total in cents. */
  function PaymentEnvelope(order: OrderEntry, product: Product, quantity: Json, count: int): (m: AgentMessage)
    ensures m.messageType == "request" && m.sender == "orchestrator_agent" && m.intent == "process_payment"
    ensures m.conversationId == Some("order_" + order.orderId)
    ensures "context" in m.payload && m.payload["context"].JObj?
    ensures var c := m.payload["context"].fields;
      c.Keys == {"order_id", "product", "quantity", "total_amount"}
      && c["order_id"] == JStr(order.orderId) && c["product"] == ProductJson(product)
      && c["quantity"] == quantity && c["total_amount"] == JNum(product.priceCents * count)
  {
    var context := map["order_id" := JStr(order.orderId), "product" := ProductJson(product),
                       "quantity" := quantity, "total_amount" := JNum(product.priceCents * count)];
    AgentMessage("request", "orchestrator_agent", "process_payment", map["context" := JObj(context)],
                 Some("order_" + order.orderId))
  }

  /** What posting the payment request yields: no connection, or a status and the JSON body. */
  datatype PaymentReply = PaymentUnreachable | PaymentAnswer(status: int, body: Option<Json>)

  /** How the payment step is reported. */
  datatype PaymentReport =
    | PaymentProcessed(transactionId: Json)
    | PaymentFailed(status: int)
    | PaymentAgentUnreachable
    | PaymentError

  /** A 200 answer counts as processed; the transaction id is read from its payload, with
      "Unknown" when absent. A non-200 status is a failure; an answer that is not an object,
      or whose payload is not an object, is an error. */
  function ReportPayment(reply: PaymentReply): (r: PaymentReport)
    ensures r.PaymentProcessed? <==>
      reply.PaymentAnswer? && reply.status == 200 && reply.body.Some? && reply.body.value.JObj?
      && ("payload" in reply.body.value.fields ==> reply.body.value.fields["payload"].JObj?)
    ensures r.PaymentFailed? <==> reply.PaymentAnswer? && reply.status != 200
    ensures r == PaymentAgentUnreachable <==> reply.PaymentUnreachable?
    ensures r.PaymentProcessed? && "payload" in reply.body.value.fields
            && "transaction_id" in reply.body.value.fields["payload"].fields ==>
      r.transactionId == reply.body.value.fields["payload"].fields["transaction_id"]
    ensures r.PaymentProcessed? && !("payload" in reply.body.value.fields
            && "transaction_id" in reply.body.value.fields["payload"].fields) ==>
      r.transactionId == JStr("Unknown")
  {
    match reply
    case PaymentUnreachable => PaymentAgentUnreachable
    case PaymentAnswer(status, body) =>
      if status != 200 then PaymentFailed(status)
      else if body.None? || !body.value.JObj? then PaymentError
      else
        var payload := if "payload" in body.value.fields then body.value.fields["payload"] else JObj(map[]);
        if !payload.JObj? then PaymentError
        else PaymentProcessed(if "transaction_id" in payload.fields then payload.fields["transaction_id"]
                              else JStr("Unknown"))
  }
}

=== FILE: json.dfy ===
/** JSON values as the Python code sees them after `json.loads`, and the parser itself
    treated as an arbitrary total function that either yields a value or fails. */
module Json {
  import opened Wrappers

  /** Numbers are integers: every amount in this model is in cents. */
  datatype Json =
    | JNull
    | JBool(b: bool)
    | JNum(n: int)
    | JStr(s: string)
    | JArr(items: seq<Json>)
    | JObj(fields: map<string, Json>)

  /** `json.loads`: `None` stands for a `JSONDecodeError`. */
  type Parser = string -> Option<Json>

  /** `d.get(key)` on a Python dict: `None` when the key is absent. */
  function Get(fields: map<string, Json>, key: string): (r: Option<Json>)
    ensures r.Some? <==> key in fields
    ensures r.Some? ==> r.value == fields[key]
  {
    if key in fields then Some(fields[key]) else None
  }
}

=== FILE: json_repair.dfy ===
/** `safe_json_parse`: recovering one JSON value from free-text model output by a fixed
    series of attempts over substrings of the stripped text; the first that parses wins. */
module JsonRepair {
  import opened Wrappers
  import opened Json
  import opened Text

  /** Python's `s[lo:hi]` for in-range bounds: empty when `hi <= lo`. */
  function PySlice(s: string, lo: nat, hi: nat): (r: string)
    requires lo <= |s| && hi <= |s|
    ensures lo <= hi ==> r == s[lo..hi]
    ensures hi <= lo ==> r == []
  {
    if lo <= hi then s[lo..hi] else []
  }

  /** Candidate of the second attempt: from the first `{` to the last `}` inclusive,
      only when both characters occur. */
  function BraceSlice(s: string): (r: Option<string>)
    ensures r.Some? <==> '{' in s && '}' in s
    ensures r.Some? ==> Find(s, '{').Some? && RFind(s, '}').Some?
    ensures r.Some? && Find(s, '{').value < RFind(s, '}').value
            ==> r.value == s[Find(s, '{').value..RFind(s, '}').value + 1]
    ensures r.Some? && RFind(s, '}').value < Find(s, '{').value ==> r.value == []
  {
    match (Find(s, '{'), RFind(s, '}'))
    case (Some(start), Some(end)) => Some(PySlice(s, start, end + 1))
    case _ => None
  }

  /** Candidate of the third attempt: the text with exactly as many `}` appended as it has
      more `{` than `}`, only when it has more. The result then has as many of each. */
  function BalancedBraces(s: string): (r: Option<string>)
    ensures r.Some? <==> Count(s, '{') > Count(s, '}')
    ensures r.Some? ==> r.value == s + Repeat('}', Count(s, '{') - Count(s, '}'))
    ensures r.Some? ==> Count(r.value, '{') == Count(r.value, '}')
  {
    var opens, closes := Count(s, '{'), Count(s, '}');
    if opens > closes then
      var fix := Repeat('}', opens - closes);
      ClosingFixBalances(s, opens - closes);
      Some(s + fix)
    else None
  }

  lemma ClosingFixBalances(s: string, n: nat)
    ensures Count(s + Repeat('}', n), '{') == Count(s, '{')
    ensures Count(s + Repeat('}', n), '}') == Count(s, '}') + n
  {
    var fix := Repeat('}', n);
    CountRepeat('}', n);
    assert Count(fix, '{') == 0;
    assert multiset(s + fix) == multiset(s) + multiset(fix);
  }

  /** The last index `j >= lo` with `s[j] == c`. */
  function LastFrom(s: string, c: char, lo: nat): (r: Option<nat>)
    requires lo <= |s|
    ensures r.Some? ==> lo <= r.value < |s| && s[r.value] == c
    ensures r.Some? ==> forall j :: r.value < j < |s| ==> s[j] != c
    ensures r.None? ==> forall j :: lo <= j < |s| ==> s[j] != c
  {
    match RFind(s[lo..], c)
    case Some(k) => Some(lo + k)
    case None => None
  }

  /** Leftmost match of the greedy DOTALL pattern `\{.*\}` at or after index `i`: the
      first `{` that has some `}` after it, extended to the last `}`. */
  function MatchFrom(s: string, i: nat): Option<string>
    requires i <= |s|
    decreases |s| - i
  {
    if i == |s| then None
    else if s[i] == '{' then
      match LastFrom(s, '}', i + 1)
      case Some(j) => Some(s[i..j + 1])
      case None => MatchFrom(s, i + 1)
    else MatchFrom(s, i + 1)
  }

  /** Candidate of the fourth attempt: the first element of
      `re.findall(r"\{.*\}", s, re.DOTALL)`, when the list is not empty. */
  function RegexMatch(s: string): Option<string> {
    MatchFrom(s, 0)
  }

  const RepairFailedPrefix: string := "Failed to parse AI output after repairs: "

  /** `safe_json_parse(raw)`; a `Failure` is the `ValueError` it raises. */
  function SafeJsonParse(raw: string, parse: Parser): (r: Result<Json, string>)
    ensures parse(Strip(raw)).Some? ==> r == Success(parse(Strip(raw)).value)
    ensures r.Failure? ==> r.error == RepairFailedPrefix + Strip(raw)
  {
    var s := Strip(raw);
    if parse(s).Some? then Success(parse(s).value)
    else if BraceSlice(s).Some? && parse(BraceSlice(s).value).Some? then
      Success(parse(BraceSlice(s).value).value)
    else if BalancedBraces(s).Some? && parse(BalancedBraces(s).value).Some? then
      Success(parse(BalancedBraces(s).value).value)
    else if RegexMatch(s).Some? && parse(RegexMatch(s).value).Some? then
      Success(parse(RegexMatch(s).value).value)
    else Failure(RepairFailedPrefix + s)
  }

  /** The strings the repair tries, in order: the stripped text, then each candidate whose
      guard holds. */
  function Candidates(s: string): seq<string> {
    [s] + OptionToSeq(BraceSlice(s)) + OptionToSeq(BalancedBraces(s)) + OptionToSeq(RegexMatch(s))
  }

  function OptionToSeq(o: Option<string>): (r: seq<string>)
    ensures |r| <= 1
  {
    match o
    case Some(c) => [c]
    case None => []
  }

  /** Reference semantics of "first success wins": the parse of the first candidate that
      parses, if any. */
  function FirstParse(parse: Parser, cs: seq<string>): Option<Json> {
    if |cs| == 0 then None
    else if parse(cs[0]).Some? then parse(cs[0])
    else FirstParse(parse, cs[1..])
  }

  /** `FirstParse` yields `None` exactly when no candidate parses, and otherwise the parse
      of a candidate all of whose predecessors fail. */
  lemma {:induction false} FirstParseSpec(parse: Parser, cs: seq<string>)
    ensures FirstParse(parse, cs).None? <==> forall k :: 0 <= k < |cs| ==> parse(cs[k]).None?
    ensures FirstParse(parse, cs).Some? ==>
              exists k :: 0 <= k < |cs| && parse(cs[k]) == FirstParse(parse, cs)
                          && forall j :: 0 <= j < k ==> parse(cs[j]).None?
  {
    if |cs| > 0 && parse(cs[0]).None? {
      FirstParseSpec(parse, cs[1..]);
      assert forall k :: 1 <= k < |cs| ==> cs[k] == cs[1..][k - 1];
      var r := FirstParse(parse, cs[1..]);
      if r.Some? {
        var k :| 0 <= k < |cs[1..]| && parse(cs[1..][k]) == r
                 && forall j :: 0 <= j < k ==> parse(cs[1..][j]).None?;
        assert parse(cs[k + 1]) == r && forall j :: 0 <= j < k + 1 ==> parse(cs[j]).None?;
      }
    }
  }

  lemma FirstParseCons(parse: Parser, c: string, cs: seq<string>)
    ensures FirstParse(parse, [c] + cs) == if parse(c).Some? then parse(c) else FirstParse(parse, cs)
  {
    assert ([c] + cs)[0] == c && ([c] + cs)[1..] == cs;
  }

  lemma FirstParseOption(parse: Parser, o: Option<string>, cs: seq<string>)
    ensures FirstParse(parse, OptionToSeq(o) + cs)
         == if o.Some? && parse(o.value).Some? then parse(o.value) else FirstParse(parse, cs)
  {
    if o.Some? {
      FirstParseCons(parse, o.value, cs);
    } else {
      assert OptionToSeq(o) + cs == cs;
    }
  }

  /** First success over a fixed text followed by three optional candidates. */
  lemma FirstOfOptions(parse: Parser, s: string, o1: Option<string>, o2: Option<string>, o3: Option<string>)
    ensures FirstParse(parse, [s] + OptionToSeq(o1) + OptionToSeq(o2) + OptionToSeq(o3))
         == if parse(s).Some? then parse(s)
            else if o1.Some? && parse(o1.value).Some? then parse(o1.value)
            else if o2.Some? && parse(o2.value).Some? then parse(o2.value)
            else if o3.Some? && parse(o3.value).Some? then parse(o3.value)
            else None
  {
    var a, b, c := OptionToSeq(o1), OptionToSeq(o2), OptionToSeq(o3);
    assert [s] + a + b + c == [s] + (a + (b + (c + [])));
    FirstParseCons(parse, s, a + (b + (c + [])));
    FirstParseOption(parse, o1, b + (c + []));
    FirstParseOption(parse, o2, c + []);
    FirstParseOption(parse, o3, []);
    assert FirstParse(parse, []) == None;
  }

  /** The first candidate that parses, spelled out attempt by attempt. */
  lemma FirstCandidate(s: string, parse: Parser)
    ensures FirstParse(parse, Candidates(s))
         == if parse(s).Some? then parse(s)
            else if BraceSlice(s).Some? && parse(BraceSlice(s).value).Some? then parse(BraceSlice(s).value)
            else if BalancedBraces(s).Some? && parse(BalancedBraces(s).value).Some? then parse(BalancedBraces(s).value)
            else if RegexMatch(s).Some? && parse(RegexMatch(s).value).Some? then parse(RegexMatch(s).value)
            else None
  {
    FirstOfOptions(parse, s, BraceSlice(s), BalancedBraces(s), RegexMatch(s));
  }

  /** The repair returns the parse of the first candidate that parses, in the fixed order,
      and fails exactly when no candidate parses: no later attempt runs after a success. */
  lemma {:induction false} SafeJsonParseIsFirstSuccess(raw: string, parse: Parser)
    ensures var first := FirstParse(parse, Candidates(Strip(raw)));
            SafeJsonParse(raw, parse) == if first.Some? then Success(first.value)
                                         else Failure(RepairFailedPrefix + Strip(raw))
  {
    FirstCandidate(Strip(raw), parse);
  }

  lemma {:induction false} MatchFromSkips(s: string, i: nat, k: nat)
    requires i <= k <= |s|
    requires forall j :: i <= j < k ==> s[j] != '{'
    ensures MatchFrom(s, i) == MatchFrom(s, k)
    decreases k - i
  {
    if i < k {
      MatchFromSkips(s, i + 1, k);
    }
  }

  lemma {:induction false} MatchFromNone(s: string, i: nat)
    requires i <= |s|
    requires forall j :: i <= j < |s| ==> s[j] != '}'
    ensures MatchFrom(s, i) == None
    decreases |s| - i
  {
    if i < |s| {
      MatchFromNone(s, i + 1);
    }
  }

  /** Where the last `}` of the whole text lies at or after `lo`, it is also the last one
      from `lo` on; otherwise there is none from `lo` on. */
  lemma LastFromIsRFind(s: string, lo: nat)
    requires lo <= |s|
    ensures RFind(s, '}').Some? && RFind(s, '}').value >= lo ==> LastFrom(s, '}', lo) == RFind(s, '}')
    ensures RFind(s, '}').None? || RFind(s, '}').value < lo ==> LastFrom(s, '}', lo).None?
  {
    var r, l := RFind(s, '}'), LastFrom(s, '}', lo);
    if r.Some? && r.value >= lo {
      assert l.Some?;
      assert l.value == r.value;
    }
  }

  lemma RegexMatchNoOpen(s: string)
    requires Find(s, '{').None?
    ensures RegexMatch(s).None?
  {
    MatchFromSkips(s, 0, |s|);
  }

  lemma RegexMatchNoClose(s: string, start: nat)
    requires Find(s, '{') == Some(start) && RFind(s, '}').None?
    ensures RegexMatch(s).None?
  {
    MatchFromSkips(s, 0, start);
    MatchFromNone(s, start);
  }

  /** From the first `{` on, the match runs to the last `}`. */
  lemma MatchAtFirstOpen(s: string, start: nat, end: nat)
    requires Find(s, '{') == Some(start) && RFind(s, '}') == Some(end) && start < end
    ensures MatchFrom(s, start) == Some(s[start..end + 1])
  {
    LastFromIsRFind(s, start + 1);
  }

  lemma RegexMatchBoth(s: string, start: nat, end: nat)
    requires Find(s, '{') == Some(start) && RFind(s, '}') == Some(end)
    ensures start < end ==> RegexMatch(s) == Some(s[start..end + 1]) && BraceSlice(s) == RegexMatch(s)
    ensures end < start ==> RegexMatch(s).None?
  {
    MatchFromSkips(s, 0, start);
    if start < end {
      MatchAtFirstOpen(s, start, end);
    } else if end < start {
      MatchFromNone(s, start);
    }
  }

  /** The regex fallback's match is the same substring the second attempt parses: it exists
      exactly when the first `{` precedes the last `}`, and then equals the brace slice. */
  lemma RegexMatchIsBraceSlice(s: string)
    ensures RegexMatch(s).Some? <==> Find(s, '{').Some? && RFind(s, '}').Some?
                                     && Find(s, '{').value < RFind(s, '}').value
    ensures RegexMatch(s).Some? ==> BraceSlice(s) == RegexMatch(s)
  {
    var first, last := Find(s, '{'), RFind(s, '}');
    if first.None? {
      RegexMatchNoOpen(s);
    } else if last.None? {
      RegexMatchNoClose(s, first.value);
    } else {
      RegexMatchBoth(s, first.value, last.value);
    }
  }

  /** The fourth attempt cannot succeed where the first two failed: it parses a substring
      the second attempt already tried, or nothing at all. */
  lemma RegexNeverRescues(raw: string, parse: Parser)
    requires var s := Strip(raw);
             BraceSlice(s).Some? ==> parse(BraceSlice(s).value).None?
    ensures var s := Strip(raw);
            RegexMatch(s).None? || parse(RegexMatch(s).value).None?
  {
    RegexMatchIsBraceSlice(Strip(raw));
  }

  /** Hence the repair behaves exactly as it would with the first three attempts only. */
  lemma RepairWithoutRegex(raw: string, parse: Parser)
    ensures var s := Strip(raw);
            SafeJsonParse(raw, parse)
            == if parse(s).Some? then Success(parse(s).value)
               else if BraceSlice(s).Some? && parse(BraceSlice(s).value).Some? then
                 Success(parse(BraceSlice(s).value).value)
               else if BalancedBraces(s).Some? && parse(BalancedBraces(s).value).Some? then
                 Success(parse(BalancedBraces(s).value).value)
               else Failure(RepairFailedPrefix + s)
  {
    var s := Strip(raw);
    if BraceSlice(s).Some? && parse(BraceSlice(s).value).Some? {
    } else {
      RegexNeverRescues(raw, parse);
    }
  }
}

=== FILE: orchestrator.dfy ===
/** One press of the storefront's "Run" button: fetch the catalog, ask the language model for
    a tool decision, check it, call the order agent, and after an order check the product and
    quantity again and hand the payment to the payment agent. Streamlit's messages are not
    modelled; a run's result records the notice chosen, whether the decision was downgraded,
    the tool call made and the outcome category the run ends in. */
module Orchestrator {
  import opened Wrappers
  import opened Json
  import opened Shop
  import opened PaymentAgent
  import opened Intent
  import OrderAgent
  import PaymentServer

  /** Where a run ends. Every case but `ProductsShown` and `OrderPlaced` is an error stop. */
  datatype Outcome =
    | CatalogUnreachable
    | CatalogFailed(status: int)
    | CatalogEmpty
    | Unparsable
    | UnknownTool(tool: Json)
    | OrderAgentUnreachable
    | OperationFailed(status: int)
    | NoProducts
    | ProductsShown(products: seq<Product>)
    | DetailsUnreachable
    | DetailsFailed(status: int)
    | InvalidProduct
    | QuantityNotPositive
    | UnexpectedError
    | OrderPlaced(order: OrderEntry, request: AgentMessage, payment: PaymentReport)

  /** What a run did: the notice shown before a listing, whether an order decision was turned
      into a listing, the tool call sent to the order agent, and the outcome. */
  datatype RunResult = RunResult(notice: Notice, downgraded: bool, invoked: Option<Decision>, outcome: Outcome)

  /** The first listing, made to build the prompt, must answer 200 with some products. */
  predicate CatalogUsable(catalog: AgentReply) {
    catalog.Reply? && catalog.status == 200 && catalog.products != []
  }

  /** The run block. The order agent's answers to the first listing, the validation listing,
      the tool call and the details listing, the model's raw answer, `json.loads` and the
      payment agent's answer are inputs; a request not made leaves its input unused. */
  method Run(userInput: string, catalog: AgentReply, aiResponse: string, parse: Parser,
             validation: AgentReply, invocation: AgentReply, details: AgentReply, payment: PaymentReply)
    returns (run: RunResult)
    ensures !CatalogUsable(catalog) ==>
      run == RunResult(NoNotice, false, None,
                       if catalog.Unreachable? then CatalogUnreachable
                       else if catalog.status != 200 then CatalogFailed(catalog.status)
                       else CatalogEmpty)
    ensures CatalogUsable(catalog) && DecisionOf(aiResponse, parse).None? ==>
      run == RunResult(NoNotice, false, None, Unparsable)
    ensures CatalogUsable(catalog) && DecisionOf(aiResponse, parse).Some? ==>
      var d := DecisionOf(aiResponse, parse).value;
      var checked := if Downgrades(d, validation) then Decision(ListTool, JObj(map[])) else d;
      && run.notice == ListNotice(d.tool, userInput)
      && run.downgraded == Downgrades(d, validation)
      && (run.invoked.Some? <==> IsKnownTool(checked.tool))
      && (run.invoked.Some? ==> run.invoked.value == checked)
      && (!IsKnownTool(checked.tool) ==> run.outcome == UnknownTool(d.tool))
    ensures run.invoked.Some? ==> IsKnownTool(run.invoked.value.tool)
    ensures run.invoked.Some? && invocation.Unreachable? ==> run.outcome == OrderAgentUnreachable
    ensures run.invoked.Some? && invocation.Reply? && invocation.status != 200 ==>
      run.outcome == OperationFailed(invocation.status)
    ensures run.invoked.Some? && run.invoked.value.tool == ListTool && invocation.Reply? && invocation.status == 200 ==>
      run.outcome == if invocation.products == [] then NoProducts else ProductsShown(invocation.products)
    ensures run.invoked.Some? && run.invoked.value.tool == OrderTool && invocation.Reply? && invocation.status == 200 ==>
      var args := run.invoked.value.args;
      match PrePaymentGuard(args, details)
      case ListingUnreachable => run.outcome == DetailsUnreachable
      case ListingRejected(status) => run.outcome == DetailsFailed(status)
      case ProductNotListed => run.outcome == InvalidProduct
      case GuardError => run.outcome == UnexpectedError
      case QuantityRejected => run.outcome == QuantityNotPositive
      case Cleared(product, count) =>
        run.outcome == if invocation.order.None? then UnexpectedError
                       else OrderPlaced(invocation.order.value,
                                        PaymentEnvelope(invocation.order.value, product, args.fields["quantity"], count),
                                        ReportPayment(payment))
    ensures run.outcome.OrderPlaced? ==>
      run.invoked.Some? && run.invoked.value.tool == OrderTool && !run.downgraded
      && PrePaymentGuard(run.invoked.value.args, details).Cleared?
    ensures run.outcome == QuantityNotPositive ==>
      run.invoked.Some? && run.invoked.value.tool == OrderTool && invocation.Reply? && invocation.status == 200
  {
    run := RunResult(NoNotice, false, None, CatalogUnreachable);
    if catalog.Unreachable? {
      return;
    }
    if catalog.status != 200 {
      run := run.(outcome := CatalogFailed(catalog.status));
      return;
    }
    if catalog.products == [] {
      run := run.(outcome := CatalogEmpty);
      return;
    }
    var decision := DecisionOf(aiResponse, parse);
    if decision.None? {
      run := run.(outcome := Unparsable);
      return;
    }
    var toolName, args := decision.value.tool, decision.value.args;
    run := run.(notice := ListNotice(toolName, userInput));
    var checked, downgraded := ValidateDecision(decision.value, validation);
    toolName, args := checked.tool, checked.args;
    run := run.(downgraded := downgraded);
    if !IsKnownTool(toolName) {
      run := run.(outcome := UnknownTool(toolName));
      return;
    }
    run := run.(invoked := Some(Decision(toolName, args)));
    if invocation.Unreachable? {
      run := run.(outcome := OrderAgentUnreachable);
      return;
    }
    if invocation.status != 200 {
      run := run.(outcome := OperationFailed(invocation.status));
      return;
    }
    if toolName == ListTool {
      if invocation.products == [] {
        run := run.(outcome := NoProducts);
      } else {
        run := run.(outcome := ProductsShown(invocation.products));
      }
      return;
    }
    var guard := PrePaymentGuard(args, details);
    match guard {
      case ListingUnreachable =>
        run := run.(outcome := DetailsUnreachable);
      case ListingRejected(status) =>
        run := run.(outcome := DetailsFailed(status));
      case ProductNotListed =>
        run := run.(outcome := InvalidProduct);
      case GuardError =>
        run := run.(outcome := UnexpectedError);
      case QuantityRejected =>
        run := run.(outcome := QuantityNotPositive);
      case Cleared(product, count) =>
        if invocation.order.None? {
          run := run.(outcome := UnexpectedError);
        } else {
          var order := invocation.order.value;
          var request := PaymentEnvelope(order, product, args.fields["quantity"], count);
          run := run.(outcome := OrderPlaced(order, request, ReportPayment(payment)));
        }
    }
  }

  /** The two tools the orchestrator accepts are exactly the two the order agent advertises. */
  lemma WhitelistMatchesRegistry()
    ensures forall k :: 0 <= k < |OrderAgent.DiscoverTools()| ==> IsKnownTool(JStr(OrderAgent.DiscoverTools()[k].name))
    ensures forall tool :: IsKnownTool(tool) ==>
      exists k :: 0 <= k < |OrderAgent.DiscoverTools()| && JStr(OrderAgent.DiscoverTools()[k].name) == tool
  {
    var tools := OrderAgent.DiscoverTools();
    assert JStr(tools[0].name) == ListTool && JStr(tools[1].name) == OrderTool;
  }

  /** The payment request crosses HTTP intact, and the payment agent reads from it the order's
      id and the total the orchestrator computed. */
  lemma EnvelopeReachesAgent(order: OrderEntry, product: Product, quantity: Json, count: int)
    ensures var request := PaymentEnvelope(order, product, quantity, count);
      Load(Dump(request)) == Some(request)
      && QueryOf(request) == Success(PaymentQuery(Some(JStr(order.orderId)), Some(JNum(product.priceCents * count))))
  {
    DumpLoad(PaymentEnvelope(order, product, quantity, count));
  }

  /** The payment agent answers a failed payment with an error envelope at status 200, and the
      orchestrator, which looks only at the status, reports it as processed with transaction
      id "Unknown". */
  lemma FailedPaymentReportedAsProcessed(request: AgentMessage, model: (PaymentQuery, nat) -> ModelOutcome,
                                         parse: Parser, backend: Json -> PostOutcome)
    requires ProcessPayment(request, model, parse, backend).messageType != "response"
    ensures ReportPayment(PaymentAnswer(200, Some(Dump(ProcessPayment(request, model, parse, backend)))))
         == PaymentProcessed(JStr("Unknown"))
  {
    var reply := ProcessPayment(request, model, parse, backend);
    assert reply.payload == map["error" := JStr(reply.payload["error"].s)];
  }

  /** When the model's request reaches the stub payment server and passes its validation, the
      orchestrator reports the stub's constant transaction id. */
  lemma StubPaymentReported(request: AgentMessage, text: string, parse: Parser, backend: Json -> PostOutcome,
                            serverText: string)
    requires parse(text).Some? && PaymentServer.DecodeRequest(parse(text).value).Some?
    requires backend(parse(text).value) == PostReply(200, serverText, PaymentServer.Endpoint(parse(text).value).1)
    ensures ReportPayment(PaymentAnswer(200, Some(Dump(Answer(request, Returned(text), parse, backend)))))
         == PaymentProcessed(JStr(PaymentServer.TransactionId))
  {
    var body := PaymentServer.Endpoint(parse(text).value).1;
    assert body.Some? && body.value.JObj? && "transaction_id" in body.value.fields;
  }
}

=== FILE: order_agent.dfy ===
/** The order agent: a tool server exposing `listProducts` and `placeOrder` over a cached
    storefront catalog, recording every confirmed order in an in-memory log. */
module OrderAgent {
  import opened Wrappers
  import opened Json
  import opened Text
  import opened Shop
  import opened Catalog

  /** A tool as the discovery endpoint advertises it. */
  datatype ToolSpec = ToolSpec(
    name: string,
    description: string,
    inputSchema: map<string, string>,
    outputSchema: map<string, string>)

  /** `discover_tools`: the fixed registry of the two tools this server answers. */
  function DiscoverTools(): (tools: seq<ToolSpec>)
    ensures |tools| == 2
    ensures tools[0].name == "listProducts" && tools[0].inputSchema == map[]
    ensures tools[1].name == "placeOrder" && tools[1].inputSchema.Keys == {"product_id", "quantity"}
  {
    [ ToolSpec("listProducts", "List all available products", map[],
               map["products" := "array of product objects"]),
      ToolSpec("placeOrder", "Place a new order by product_id and quantity",
               map["product_id" := "integer", "quantity" := "integer"],
               map["order" := "order object"]) ]
  }

  /** The cookie the storefront's cart sets, as it appears in `Set-Cookie`. */
  const SessionMarker: string := "shop_session-id="

  /** A part holding the marker holds an `=`. */
  lemma MarkerHasEquals(part: string)
    requires Contains(part, SessionMarker)
    ensures '=' in part
  {
    var i :| 0 <= i <= |part| - |SessionMarker| && OccursAt(part, SessionMarker, i);
    assert part[i..i + |SessionMarker|][15] == '=';
    assert part[i + 15] == '=';
  }

  /** `part.split('=')[1].strip()`. */
  function CookieValue(part: string): (v: string)
    requires Contains(part, SessionMarker)
    ensures '=' !in v
  {
    MarkerHasEquals(part);
    var pieces := SplitOn(part, '=');
    SplitOnSecond(part, '=');
    StripKeepsAbsentChar(pieces[1], '=');
    Strip(pieces[1])
  }

  /** The cookie value is the text between the first and the second `=` of the part (or its
      end), with surrounding whitespace removed. */
  lemma CookieValueBetween(part: string)
    requires Contains(part, SessionMarker)
    ensures exists i, j :: SecondField(part, '=', i, j) && CookieValue(part) == Strip(part[i + 1..j])
  {
    MarkerHasEquals(part);
    SplitOnSecond(part, '=');
  }

  /** The cookie taken from the first part that holds the marker. */
  function FirstCookie(parts: seq<string>): (c: Option<string>)
    ensures c.Some? <==> exists k :: 0 <= k < |parts| && Contains(parts[k], SessionMarker)
  {
    if parts == [] then None
    else if Contains(parts[0], SessionMarker) then Some(CookieValue(parts[0]))
    else
      var c := FirstCookie(parts[1..]);
      assert forall k :: 1 <= k < |parts| ==> parts[k] == parts[1..][k - 1];
      c
  }

  /** Part `k` is the first of `parts` to hold the marker. */
  predicate FirstMarked(parts: seq<string>, k: int) {
    0 <= k < |parts| && Contains(parts[k], SessionMarker)
    && forall j :: 0 <= j < k ==> !Contains(parts[j], SessionMarker)
  }

  /** When part `k` is the first to hold the marker, the cookie is that part's value. */
  lemma {:induction false} FirstCookieAt(parts: seq<string>, k: nat)
    requires FirstMarked(parts, k)
    ensures FirstCookie(parts) == Some(CookieValue(parts[k]))
    decreases k
  {
    if k > 0 {
      var rest := parts[1..];
      assert forall j :: 0 <= j < |rest| ==> rest[j] == parts[j + 1];
      assert FirstMarked(rest, k - 1);
      FirstCookieAt(rest, k - 1);
    }
  }

  /** The cookie found comes from the first part holding the marker, not a later one: `k` is
      that part's index. */
  lemma {:induction false} FirstCookieIsFirst(parts: seq<string>) returns (k: nat)
    requires FirstCookie(parts).Some?
    ensures FirstMarked(parts, k) && FirstCookie(parts).value == CookieValue(parts[k])
  {
    if Contains(parts[0], SessionMarker) {
      k := 0;
    } else {
      var rest := parts[1..];
      var k' := FirstCookieIsFirst(rest);
      k := k' + 1;
      assert forall j :: 0 < j < |parts| ==> parts[j] == rest[j - 1];
    }
  }

  /** The session cookie of a `Set-Cookie` header: looked for only when the header holds the
      marker, in the `;`-separated parts. */
  function SessionCookie(header: string): Option<string> {
    if Contains(header, SessionMarker) then FirstCookie(SplitOn(header, ';')) else None
  }

  /** A cookie is found exactly when the header holds the marker: the marker has no `;`, so
      an occurrence lies inside one part, and the search over the parts finds it. */
  lemma SessionCookieFound(header: string)
    ensures SessionCookie(header).Some? <==> Contains(header, SessionMarker)
  {
    if Contains(header, SessionMarker) {
      ContainsInPart(header, ';', SessionMarker);
    }
  }

  /** The cookie extraction of `place_order`: a search over the header's parts that stops at
      the first one holding the marker. */
  method ExtractSessionCookie(header: string) returns (cookie: Option<string>)
    ensures cookie == SessionCookie(header)
    ensures cookie.Some? <==> Contains(header, SessionMarker)
    ensures cookie.Some? ==> '=' !in cookie.value
    ensures cookie.Some? ==>
      exists k :: FirstMarked(SplitOn(header, ';'), k) && cookie.value == CookieValue(SplitOn(header, ';')[k])
  {
    SessionCookieFound(header);
    cookie := None;
    if Contains(header, SessionMarker) {
      var parts := SplitOn(header, ';');
      var i := 0;
      while i < |parts|
        invariant 0 <= i <= |parts|
        invariant FirstCookie(parts[i..]) == FirstCookie(parts)
        invariant forall j :: 0 <= j < i ==> !Contains(parts[j], SessionMarker)
        decreases |parts| - i
      {
        assert parts[i..][1..] == parts[i + 1..];
        if Contains(parts[i], SessionMarker) {
          assert FirstMarked(parts, i);
          cookie := Some(CookieValue(parts[i]));
          return;
        }
        i := i + 1;
      }
    }
  }

  /** The cart request: refused at the connection level, or answered with a status and the
      `Set-Cookie` header (empty when absent). */
  datatype CartOutcome = CartUnreachable | CartReply(status: int, setCookie: string)

  /** The checkout request: refused at the connection level, or answered with a status and
      what the confirmation page shows (confirmation number, tracking number, total paid). */
  datatype CheckoutOutcome =
    | CheckoutUnreachable
    | CheckoutReply(status: int, confirmation: Option<string>, tracking: Option<string>, totalCents: Option<int>)

  /** Why an order failed. */
  datatype Cause =
    | ProductNotFound
    | MissingField(field: string)
    | CartRejected(status: int)
    | NoSessionCookie
    | CheckoutRejected(status: int)
    | StoreUnreachable

  /** The HTTP error the endpoint answers with. */
  datatype OrderError = OrderError(status: int, cause: Cause)

  function ValueOr<T>(o: Option<T>, default: T): T {
    if o.Some? then o.value else default
  }

  /** The log entry of a confirmed checkout: fields missing from the page get sentinels. */
  function ConfirmedEntry(order: map<string, Json>, checkout: CheckoutOutcome): (e: OrderEntry)
    requires "product_id" in order && "quantity" in order && checkout.CheckoutReply?
    ensures e.status == "confirmed"
    ensures e.productId == order["product_id"] && e.quantity == order["quantity"]
    ensures e.orderId == (if checkout.confirmation.Some? then checkout.confirmation.value else "unknown")
    ensures e.trackingId == (if checkout.tracking.Some? then checkout.tracking.value else "unknown")
    ensures e.totalPaidCents == (if checkout.totalCents.Some? then checkout.totalCents.value else 0)
  {
    OrderEntry(ValueOr(checkout.confirmation, "unknown"), ValueOr(checkout.tracking, "unknown"),
               order["product_id"], order["quantity"], ValueOr(checkout.totalCents, 0), "confirmed")
  }

  /** An order goes through exactly when it names a listed product and a quantity, the cart
      request answers 200 with a non-empty session cookie, and the checkout answers below 400. */
  predicate Accepted(order: map<string, Json>, products: seq<Product>, cart: CartOutcome,
                     checkout: CheckoutOutcome)
  {
    && "product_id" in order && FirstWithId(products, order["product_id"]).Some?
    && "quantity" in order
    && cart.CartReply? && cart.status == 200
    && SessionCookie(cart.setCookie).Some? && SessionCookie(cart.setCookie).value != ""
    && checkout.CheckoutReply? && checkout.status < 400
  }

  /** The steps of `place_order` after the catalog refresh, none of which changes the
      server: look the product up in `products`, add it to a storefront cart, take the
      session cookie and check out. Every failure is answered with status 500. */
  method TryOrder(order: map<string, Json>, products: seq<Product>, cart: CartOutcome,
                  checkout: CheckoutOutcome)
    returns (r: Result<OrderEntry, OrderError>)
    ensures r.Failure? ==> r.error.status == 500
    ensures r.Success? <==> Accepted(order, products, cart, checkout)
    ensures r.Success? ==> r.value == ConfirmedEntry(order, checkout)
    ensures products == [] ==> r == Failure(OrderError(500, ProductNotFound))
  {
    if products == [] {
      return Failure(OrderError(500, ProductNotFound));
    }
    if "product_id" !in order {
      return Failure(OrderError(500, MissingField("product_id")));
    }
    var product := FirstWithId(products, order["product_id"]);
    if product.None? {
      return Failure(OrderError(500, ProductNotFound));
    }
    if "quantity" !in order {
      return Failure(OrderError(500, MissingField("quantity")));
    }
    if cart.CartUnreachable? {
      return Failure(OrderError(500, StoreUnreachable));
    }
    if cart.status != 200 {
      return Failure(OrderError(500, CartRejected(cart.status)));
    }
    var cookie := ExtractSessionCookie(cart.setCookie);
    if cookie.None? || cookie.value == "" {
      return Failure(OrderError(500, NoSessionCookie));
    }
    if checkout.CheckoutUnreachable? {
      return Failure(OrderError(500, StoreUnreachable));
    }
    if checkout.status >= 400 {
      return Failure(OrderError(500, CheckoutRejected(checkout.status)));
    }
    return Success(ConfirmedEntry(order, checkout));
  }

  /** The server's module state: the catalog cache with its timestamp, and the order log. */
  class Server {
    var productsCache: Option<seq<Product>>
    var cacheStamp: Option<int>
    var orders: seq<OrderEntry>

    /** The cache and its timestamp are set together, and a cached catalog is never empty. */
    ghost predicate Valid()
      reads this`productsCache, this`cacheStamp
    {
      (productsCache.Some? <==> cacheStamp.Some?) && (productsCache.Some? ==> |productsCache.value| > 0)
    }

    constructor()
      ensures Valid()
      ensures productsCache == None && cacheStamp == None && orders == []
    {
      productsCache, cacheStamp, orders := None, None, [];
    }

    /** What the server answers with: the cached catalog, or nothing. */
    function Products(): seq<Product>
      reads this`productsCache, this`cacheStamp
    {
      if productsCache.Some? then productsCache.value else []
    }

    /** The cache is younger than the timeout at clock reading `now` (microseconds). */
    predicate IsFresh(now: int)
      reads this`productsCache, this`cacheStamp
    {
      productsCache.Some? && cacheStamp.Some? && now - cacheStamp.value < CacheTimeout
    }

    /** `get_products`: a fresh cache is answered without fetching; otherwise the storefront
        is read, and a non-empty result replaces cache and timestamp (`fetchedAt` is the clock
        reading taken then) while an empty one leaves both as they were. `fetched` is what the
        refresh gathered, empty when none ran. */
    method GetProducts(now: int, fetchedAt: int, home: Homepage, detail: string -> Detail)
      returns (products: seq<Product>, ghost fetched: seq<Product>)
      requires Valid()
      modifies this
      ensures Valid()
      ensures products == Products()
      ensures orders == old(orders)
      ensures old(IsFresh(now)) ==>
        fetched == [] && productsCache == old(productsCache) && cacheStamp == old(cacheStamp)
      ensures !old(IsFresh(now)) ==> Gathered(home, detail, fetched)
      ensures !old(IsFresh(now)) && fetched != [] ==>
        productsCache == Some(fetched) && cacheStamp == Some(fetchedAt)
      ensures fetched == [] ==> productsCache == old(productsCache) && cacheStamp == old(cacheStamp)
    {
      if productsCache.Some? && cacheStamp.Some? {
        if now - cacheStamp.value < CacheTimeout {
          return productsCache.value, [];
        }
      }
      var gathered := FetchProducts(home, detail);
      fetched := gathered;
      if gathered != [] {
        productsCache := Some(gathered);
        cacheStamp := Some(fetchedAt);
      }
      products := Products();
    }

    /** `list_products`: the catalog, refreshed as `GetProducts` does; `fetched` is what a
        refresh gathered (empty when the cache was fresh or the storefront gave nothing). */
    method ListProducts(now: int, fetchedAt: int, home: Homepage, detail: string -> Detail)
      returns (products: seq<Product>, ghost fetched: seq<Product>)
      requires Valid()
      modifies this
      ensures Valid()
      ensures products == Products()
      ensures orders == old(orders)
      ensures old(IsFresh(now)) ==>
        fetched == [] && productsCache == old(productsCache) && cacheStamp == old(cacheStamp)
      ensures !old(IsFresh(now)) ==> Gathered(home, detail, fetched)
      ensures !old(IsFresh(now)) && fetched != [] ==>
        productsCache == Some(fetched) && cacheStamp == Some(fetchedAt)
      ensures fetched == [] ==> productsCache == old(productsCache) && cacheStamp == old(cacheStamp)
    {
      products, fetched := GetProducts(now, fetchedAt, home, detail);
    }

    /** `place_order`: refresh the catalog, then run the order steps of `TryOrder` on it and
        log the confirmed order. Every failure leaves the log untouched; a success appends
        exactly the returned entry. `catalog` is the product list the lookup ran on and
        `fetched` what its refresh gathered, as in `GetProducts`. */
    method PlaceOrder(order: map<string, Json>, now: int, fetchedAt: int, home: Homepage,
                      detail: string -> Detail, cart: CartOutcome, checkout: CheckoutOutcome)
      returns (r: Result<OrderEntry, OrderError>, ghost catalog: seq<Product>,
              ghost fetched: seq<Product>)
      requires Valid()
      modifies this
      ensures Valid()
      ensures catalog == Products()
      ensures old(IsFresh(now)) ==>
        fetched == [] && productsCache == old(productsCache) && cacheStamp == old(cacheStamp)
      ensures !old(IsFresh(now)) ==> Gathered(home, detail, fetched)
      ensures !old(IsFresh(now)) && fetched != [] ==>
        productsCache == Some(fetched) && cacheStamp == Some(fetchedAt)
      ensures fetched == [] ==> productsCache == old(productsCache) && cacheStamp == old(cacheStamp)
      ensures r.Failure? ==> orders == old(orders) && r.error.status == 500
      ensures r.Success? ==> orders == old(orders) + [r.value]
      ensures r.Success? <==> Accepted(order, catalog, cart, checkout)
      ensures r.Success? ==> r.value == ConfirmedEntry(order, checkout)
      ensures catalog == [] ==> r == Failure(OrderError(500, ProductNotFound))
    {
      var products;
      products, fetched := GetProducts(now, fetchedAt, home, detail);
      catalog := products;
      r := TryOrder(order, products, cart, checkout);
      if r.Success? {
        orders := orders + [r.value];
      }
    }
  }
}

=== FILE: payment_agent.dfy ===
/** The payment agent: asks a language model to turn an order context into a payment request,
    forwards that request to the payment backend, and wraps every outcome in an agent message. */
module PaymentAgent {
  import opened Wrappers
  import opened Json
  import opened Text

  /** The agent-to-agent envelope. `messageType` is "request", "response" or "error". */
  datatype AgentMessage = AgentMessage(
    messageType: string,
    sender: string,
    intent: string,
    payload: map<string, Json>,
    conversationId: Option<string>)

  const AgentName: string := "payment_ai_agent"

  /** Attempts the agent gives the model per payment. */
  const MaxRetries: int := 3

  /** What one call to the model yields: the call raised, the response was empty, or text. */
  datatype ModelOutcome = CallFailed(errorType: string, detail: string) | NoResponse | Reply(text: string)

  /** The error one attempt ends with: exception class name and message. */
  datatype AttemptError = AttemptError(errorType: string, detail: string)

  /** How the retry loop ends: text that parses, nothing (no attempt was made), or a raised error. */
  datatype InferOutcome = Returned(text: string) | ReturnedNothing | Raised(message: string)

  const JsonFence: string := "```json"

  /** The cleaning applied to the model's text: strip, drop every "```json", then every "```",
      strip again. No code fence survives it. */
  function Clean(text: string): (c: string)
    ensures !Contains(c, Fence)
  {
    var r := ReplaceAll(ReplaceAll(Strip(text), JsonFence, ""), Fence, "");
    ReplaceRemovesFence(ReplaceAll(Strip(text), JsonFence, ""));
    SliceKeepsAbsence(r, LeadingSpace(r), LeadingSpace(r) + |Strip(r)|, Fence);
    Strip(r)
  }

  /** One attempt of the loop body: the model's outcome, cleaned and checked with the parser. */
  function Attempt(o: ModelOutcome, parse: Parser): (r: Result<string, AttemptError>)
    ensures r.Success? <==> o.Reply? && o.text != "" && parse(Clean(o.text)).Some?
    ensures r.Success? ==> r.value == Clean(o.text) && !Contains(r.value, Fence)
  {
    match o
    case CallFailed(t, d) => Failure(AttemptError(t, d))
    case NoResponse => Failure(AttemptError("ValueError", "Empty response from Gemini"))
    case Reply(text) =>
      if text == "" then Failure(AttemptError("ValueError", "Empty text in response"))
      else if parse(Clean(text)).None? then Failure(AttemptError("ValueError", "Invalid JSON"))
      else Success(Clean(text))
  }

  /** The message of the error raised once every attempt has failed. */
  function AllFailed(maxRetries: int, last: AttemptError): string {
    "All " + IntToString(maxRetries) + " attempts failed. Last error: " + last.errorType + ": " + last.detail
  }

  /** The result each attempt of the loop has: `model(prompt, k)` is the model's answer at
      attempt `k`, for the first `max(maxRetries, 0)` attempts. */
  function Trace<P>(prompt: P, model: (P, nat) -> ModelOutcome, parse: Parser, maxRetries: int)
    : (rs: seq<Result<string, AttemptError>>)
    ensures |rs| == if maxRetries <= 0 then 0 else maxRetries
  {
    var n := if maxRetries <= 0 then 0 else maxRetries;
    seq(n, k requires 0 <= k < n => Attempt(model(prompt, k), parse))
  }

  /** Slot `k` of the trace is the attempt on the model's answer at attempt `k`. */
  lemma TraceSlot<P>(prompt: P, model: (P, nat) -> ModelOutcome, parse: Parser, maxRetries: int, k: nat)
    requires k < |Trace(prompt, model, parse, maxRetries)|
    ensures Trace(prompt, model, parse, maxRetries)[k] == Attempt(model(prompt, k), parse)
  {
  }

  /** The loop from attempt `k` on, given the results of all attempts: the first success is
      returned; a failure hands over to the next attempt, or raises after the last one. */
  function Settle(rs: seq<Result<string, AttemptError>>, k: nat): InferOutcome
    requires k < |rs|
    decreases |rs| - k
  {
    match rs[k]
    case Success(t) => Returned(t)
    case Failure(e) => if k + 1 < |rs| then Settle(rs, k + 1) else Raised(AllFailed(|rs|, e))
  }

  /** What `gemini_infer` yields: nothing when no attempt is allowed, else the loop's outcome. */
  function InferSpec<P>(prompt: P, model: (P, nat) -> ModelOutcome, parse: Parser, maxRetries: int): InferOutcome {
    if maxRetries <= 0 then ReturnedNothing else Settle(Trace(prompt, model, parse, maxRetries), 0)
  }

  /** From attempt `k` on, the loop ends in text or an error; it raises exactly when that
      attempt and every later one failed, and otherwise returns the first success. */
  lemma {:induction false} SettleSpec(rs: seq<Result<string, AttemptError>>, k: nat)
    requires k < |rs|
    ensures !Settle(rs, k).ReturnedNothing?
    ensures Settle(rs, k).Raised? <==> forall j :: k <= j < |rs| ==> rs[j].Failure?
    ensures Settle(rs, k).Returned? ==>
      exists j :: k <= j < |rs| && rs[j] == Success(Settle(rs, k).text)
                && forall i :: k <= i < j ==> rs[i].Failure?
    decreases |rs| - k
  {
    if rs[k].Success? {
      assert rs[k] == Success(Settle(rs, k).text);
    } else if k + 1 < |rs| {
      SettleSpec(rs, k + 1);
      if Settle(rs, k).Returned? {
        var j :| k + 1 <= j < |rs| && rs[j] == Success(Settle(rs, k).text)
                 && forall i :: k + 1 <= i < j ==> rs[i].Failure?;
        assert forall i :: k <= i < j ==> rs[i].Failure?;
      }
    }
  }

  /** `gemini_infer` raises exactly when every allowed attempt failed, returns nothing exactly
      when no attempt is allowed, and whatever text it returns parses and holds no code fence. */
  lemma InferSpecOutcome<P>(prompt: P, model: (P, nat) -> ModelOutcome, parse: Parser, maxRetries: int)
    ensures var out := InferSpec(prompt, model, parse, maxRetries);
      && (out.ReturnedNothing? <==> maxRetries <= 0)
      && (out.Raised? <==> maxRetries > 0 && forall k :: 0 <= k < maxRetries ==> Attempt(model(prompt, k), parse).Failure?)
      && (out.Returned? ==> parse(out.text).Some? && !Contains(out.text, Fence))
  {
    if maxRetries > 0 {
      var rs := Trace(prompt, model, parse, maxRetries);
      SettleSpec(rs, 0);
      var out := InferSpec(prompt, model, parse, maxRetries);
      assert forall k :: 0 <= k < maxRetries ==> rs[k] == Attempt(model(prompt, k), parse);
      if out.Returned? {
        var j :| 0 <= j < |rs| && rs[j] == Success(out.text);
        assert Attempt(model(prompt, j), parse) == Success(out.text);
      }
    }
  }

  /** How many times the loop from attempt `k` on calls the model: once, and once more for
      each failure that still has an attempt after it. */
  function SettleCalls(rs: seq<Result<string, AttemptError>>, k: nat): nat
    requires k < |rs|
    decreases |rs| - k
  {
    if rs[k].Failure? && k + 1 < |rs| then 1 + SettleCalls(rs, k + 1) else 1
  }

  /** How many times `gemini_infer` calls the model. */
  function InferCalls<P>(prompt: P, model: (P, nat) -> ModelOutcome, parse: Parser, maxRetries: int): nat {
    if maxRetries <= 0 then 0 else SettleCalls(Trace(prompt, model, parse, maxRetries), 0)
  }

  /** From attempt `k` on, the calls stay within the allowed attempts, every call but the last
      failed, and the last call is the success returned or the failure that raised. */
  lemma {:induction false} SettleCallsSpec(rs: seq<Result<string, AttemptError>>, k: nat)
    requires k < |rs|
    ensures k + SettleCalls(rs, k) <= |rs|
    ensures forall j :: k <= j < k + SettleCalls(rs, k) - 1 ==> rs[j].Failure?
    ensures Settle(rs, k).Returned? ==> rs[k + SettleCalls(rs, k) - 1] == Success(Settle(rs, k).text)
    ensures Settle(rs, k).Raised? ==> k + SettleCalls(rs, k) == |rs| && rs[|rs| - 1].Failure?
    decreases |rs| - k
  {
    if rs[k].Failure? && k + 1 < |rs| {
      SettleCallsSpec(rs, k + 1);
    }
  }

  /** `gemini_infer` calls the model at most `max_retries` times; every call but the last one
      failed; the last call is the one whose text is returned, or, when the loop raises, the
      last allowed attempt, which failed; no call is made when nothing is returned. */
  lemma InferCallsSpec<P>(prompt: P, model: (P, nat) -> ModelOutcome, parse: Parser, maxRetries: int)
    ensures var calls, rs := InferCalls(prompt, model, parse, maxRetries), Trace(prompt, model, parse, maxRetries);
      var out := InferSpec(prompt, model, parse, maxRetries);
      && calls <= |rs|
      && (forall k :: 0 <= k < calls - 1 ==> rs[k].Failure?)
      && (out.Returned? ==> 1 <= calls && rs[calls - 1] == Success(out.text))
      && (out.Raised? ==> calls == maxRetries && rs[calls - 1].Failure?)
      && (out.ReturnedNothing? <==> calls == 0)
  {
    if maxRetries > 0 {
      SettleCallsSpec(Trace(prompt, model, parse, maxRetries), 0);
      SettleSpec(Trace(prompt, model, parse, maxRetries), 0);
    }
  }

  /** The body of one attempt: the checks on the response, the cleaning steps in order, and
      the parse check. */
  method TryAttempt(o: ModelOutcome, parse: Parser) returns (r: Result<string, AttemptError>)
    ensures r == Attempt(o, parse)
  {
    if o.CallFailed? {
      return Failure(AttemptError(o.errorType, o.detail));
    }
    if o.NoResponse? {
      return Failure(AttemptError("ValueError", "Empty response from Gemini"));
    }
    if o.text == "" {
      return Failure(AttemptError("ValueError", "Empty text in response"));
    }
    var result := o.text;
    result := Strip(result);
    result := ReplaceAll(ReplaceAll(result, JsonFence, ""), Fence, "");
    result := Strip(result);
    if parse(result).Some? {
      return Success(result);
    }
    return Failure(AttemptError("ValueError", "Invalid JSON"));
  }

  /** `gemini_infer`: up to `maxRetries` calls to the model, one pause between consecutive
      attempts and none after the last; returns the first cleaned text that parses. */
  method GeminiInfer<P>(prompt: P, model: (P, nat) -> ModelOutcome, parse: Parser, maxRetries: int)
    returns (out: InferOutcome, calls: nat, waits: nat)
    ensures out == InferSpec(prompt, model, parse, maxRetries)
    ensures calls == InferCalls(prompt, model, parse, maxRetries)
    ensures waits == if calls == 0 then 0 else calls - 1
  {
    ghost var rs := Trace(prompt, model, parse, maxRetries);
    var lastError: Option<AttemptError> := None;
    calls, waits := 0, 0;
    var attempt := 0;
    while attempt < maxRetries
      invariant if maxRetries > 0 then attempt < maxRetries else attempt == 0
      invariant calls == attempt && waits == attempt
      invariant maxRetries > 0 ==> InferSpec(prompt, model, parse, maxRetries) == Settle(rs, attempt)
      invariant maxRetries > 0 ==> InferCalls(prompt, model, parse, maxRetries) == attempt + SettleCalls(rs, attempt)
      decreases maxRetries - attempt
    {
      var o := model(prompt, attempt);
      calls := calls + 1;
      var r := TryAttempt(o, parse);
      assert r == rs[attempt];
      if r.Success? {
        out := Returned(r.value);
        return;
      }
      lastError := Some(r.error);
      if attempt < maxRetries - 1 {
        waits := waits + 1;
        attempt := attempt + 1;
        continue;
      }
      out := Raised(AllFailed(maxRetries, lastError.value));
      return;
    }
    out := ReturnedNothing;
  }

  /** The order details the agent puts into its prompt: `order_id` and `total_amount` of the
      request's context, absent ones as `None`. The prompt's wording is not modelled. */
  datatype PaymentQuery = PaymentQuery(orderId: Option<Json>, amount: Option<Json>)

  /** What posting a request to the payment backend yields: a connection-level failure, or a
      status with the response text and its body when that body is JSON. */
  datatype PostOutcome = PostFailed(reason: string) | PostReply(status: int, text: string, body: Option<Json>)

  /** The error envelope every failure is turned into. */
  function ErrorReply(request: AgentMessage, error: string): (reply: AgentMessage)
    ensures reply.messageType == "error" && reply.sender == AgentName && reply.intent == "payment_failed"
    ensures reply.payload == map["error" := JStr(error)]
    ensures reply.conversationId == request.conversationId
  {
    AgentMessage("error", AgentName, "payment_failed", map["error" := JStr(error)], request.conversationId)
  }

  /** The name of a value's Python type, as attribute errors print it. */
  function PyTypeName(j: Json): string {
    match j
    case JNull => "NoneType"
    case JBool(_) => "bool"
    case JNum(_) => "int"
    case JStr(_) => "str"
    case JArr(_) => "list"
    case JObj(_) => "dict"
  }

  /** The order details read from the request's context; a context that is not an object
      fails with the attribute error `.get` raises on it. */
  function QueryOf(request: AgentMessage): (q: Result<PaymentQuery, string>)
    ensures "context" !in request.payload ==> q == Success(PaymentQuery(None, None))
    ensures "context" in request.payload ==> (q.Success? <==> request.payload["context"].JObj?)
    ensures q.Success? && "context" in request.payload ==>
      q.value == PaymentQuery(Get(request.payload["context"].fields, "order_id"),
                              Get(request.payload["context"].fields, "total_amount"))
  {
    var context := if "context" in request.payload then request.payload["context"] else JObj(map[]);
    match context
    case JObj(fields) => Success(PaymentQuery(Get(fields, "order_id"), Get(fields, "total_amount")))
    case _ => Failure("'" + PyTypeName(context) + "' object has no attribute 'get'")
  }

  /** The inner `try` of `process_payment`, once the retry loop has ended with `out`: post the
      inferred request and answer with the backend's JSON object; every failure, including a
      non-200 status, becomes an error envelope. */
  function Answer(request: AgentMessage, out: InferOutcome, parse: Parser, backend: Json -> PostOutcome)
    : (reply: AgentMessage)
    ensures reply.messageType == "response" <==>
      out.Returned? && parse(out.text).Some? && backend(parse(out.text).value).PostReply?
      && backend(parse(out.text).value).status == 200 && backend(parse(out.text).value).body.Some?
      && backend(parse(out.text).value).body.value.JObj?
    ensures reply.messageType == "response" ==>
      reply == AgentMessage("response", AgentName, "payment_processed",
                            backend(parse(out.text).value).body.value.fields, request.conversationId)
  {
    var settled: Result<map<string, Json>, string> :=
      match out
      case ReturnedNothing => Failure("the JSON object must be str, bytes or bytearray, not NoneType")
      case Raised(message) => Failure(message)
      case Returned(text) =>
        if parse(text).None? then Failure("Expecting value: line 1 column 1 (char 0)")
        else
          match backend(parse(text).value)
          case PostFailed(reason) => Failure(reason)
          case PostReply(status, body, json) =>
            if status != 200 then Failure(IntToString(status) + ": Payment server error: " + body)
            else if json.None? then Failure("Expecting value: line 1 column 1 (char 0)")
            else if !json.value.JObj? then Failure("payload: Input should be a valid dictionary")
            else Success(json.value.fields);
    match settled
    case Success(payload) => AgentMessage("response", AgentName, "payment_processed", payload, request.conversationId)
    case Failure(error) => ErrorReply(request, "Payment processing error: " + error)
  }

  /** `process_payment`: reads the order context, runs the retry loop on it, settles the
      payment, and answers with a response or an error envelope; it never raises. */
  function ProcessPayment(request: AgentMessage, model: (PaymentQuery, nat) -> ModelOutcome, parse: Parser,
                          backend: Json -> PostOutcome): (reply: AgentMessage)
    ensures reply.sender == AgentName
    ensures reply.conversationId == request.conversationId
    ensures reply.messageType == "response" <==> reply.intent == "payment_processed"
    ensures reply.messageType != "response" ==>
      "error" in reply.payload && reply.payload["error"].JStr?
      && reply == ErrorReply(request, reply.payload["error"].s)
    ensures QueryOf(request).Failure? ==>
      reply == ErrorReply(request, "Unexpected error: " + QueryOf(request).error)
    ensures QueryOf(request).Success? ==>
      reply == Answer(request, InferSpec(QueryOf(request).value, model, parse, MaxRetries), parse, backend)
  {
    match QueryOf(request)
    case Failure(error) => ErrorReply(request, "Unexpected error: " + error)
    case Success(query) => Answer(request, InferSpec(query, model, parse, MaxRetries), parse, backend)
  }

  /** A non-200 answer of the backend ends in an error envelope naming the status code and the
      backend's text. */
  lemma BackendRejectionIsReported(request: AgentMessage, text: string, parse: Parser, backend: Json -> PostOutcome)
    requires parse(text).Some? && backend(parse(text).value).PostReply?
    requires backend(parse(text).value).status != 200
    ensures Answer(request, Returned(text), parse, backend)
         == ErrorReply(request, "Payment processing error: " + (IntToString(backend(parse(text).value).status)
                                + ": Payment server error: " + backend(parse(text).value).text))
  {
  }

  /** When the model fails on every attempt, the reply is an error envelope carrying the
      retry loop's final message. */
  lemma ModelFailureIsReported(request: AgentMessage, model: (PaymentQuery, nat) -> ModelOutcome, parse: Parser,
                               backend: Json -> PostOutcome)
    requires QueryOf(request).Success?
    requires forall k :: 0 <= k < MaxRetries ==> Attempt(model(QueryOf(request).value, k), parse).Failure?
    ensures var out := InferSpec(QueryOf(request).value, model, parse, MaxRetries);
      out.Raised? &&
      ProcessPayment(request, model, parse, backend) == ErrorReply(request, "Payment processing error: " + out.message)
  {
    InferSpecOutcome(QueryOf(request).value, model, parse, MaxRetries);
  }

  /** The envelope the legacy endpoint wraps a bare payload in. */
  function LegacyRequest(payload: map<string, Json>): AgentMessage {
    AgentMessage("request", "legacy_client", "process_payment", payload, None)
  }

  /** `handle_payment_legacy`: the bare payload goes through `process_payment` as a request
      from `legacy_client` without a conversation id. */
  function HandlePaymentLegacy(payload: map<string, Json>, model: (PaymentQuery, nat) -> ModelOutcome, parse: Parser,
                               backend: Json -> PostOutcome): (reply: AgentMessage)
    ensures reply == ProcessPayment(LegacyRequest(payload), model, parse, backend)
    ensures reply.conversationId == None
  {
    ProcessPayment(LegacyRequest(payload), model, parse, backend)
  }

  /** `model_dump()`: the envelope as the JSON object that travels over HTTP; a missing
      conversation id is `null`. */
  function Dump(m: AgentMessage): (j: Json)
    ensures j.JObj? && j.fields.Keys == {"message_type", "sender", "intent", "payload", "conversation_id"}
    ensures j.fields["payload"] == JObj(m.payload)
  {
    JObj(map["message_type" := JStr(m.messageType), "sender" := JStr(m.sender), "intent" := JStr(m.intent),
             "payload" := JObj(m.payload),
             "conversation_id" := match m.conversationId case Some(c) => JStr(c) case None => JNull])
  }

  /** The envelope model's validation of a JSON body: the three strings and the payload object
      are required, and the conversation id may be absent or `null`. */
  function Load(j: Json): (m: Option<AgentMessage>)
    ensures m.Some? ==> j.JObj? && "payload" in j.fields && j.fields["payload"] == JObj(m.value.payload)
  {
    match j
    case JObj(f) =>
      if "message_type" in f && f["message_type"].JStr? && "sender" in f && f["sender"].JStr?
         && "intent" in f && f["intent"].JStr? && "payload" in f && f["payload"].JObj?
      then
        var cid := if "conversation_id" in f then f["conversation_id"] else JNull;
        match cid
        case JNull =>
          Some(AgentMessage(f["message_type"].s, f["sender"].s, f["intent"].s, f["payload"].fields, None))
        case JStr(c) =>
          Some(AgentMessage(f["message_type"].s, f["sender"].s, f["intent"].s, f["payload"].fields, Some(c)))
        case _ => None
      else None
    case _ => None
  }

  /** Every envelope survives the trip over HTTP unchanged. */
  lemma DumpLoad(m: AgentMessage)
    ensures Load(Dump(m)) == Some(m)
  {
  }
}

=== FILE: payment_server.dfy ===
/** The payment backend stub: `POST /createPayment` echoes the request and always succeeds. */
module PaymentServer {
  import opened Wrappers
  import opened Json

  /** The request body: exactly three fields. `amount` is in cents here (a float in the source). */
  datatype PaymentRequest = PaymentRequest(orderId: int, amount: int, paymentMethod: string)

  datatype PaymentResponse = PaymentResponse(
    status: string, orderId: int, amount: int, paymentMethod: string, transactionId: string)

  const TransactionId: string := "txn_12345"

  /** `create_payment`: total, stateless, and the same transaction id every time. */
  function CreatePayment(req: PaymentRequest): (resp: PaymentResponse)
    ensures resp.status == "success"
    ensures resp.orderId == req.orderId && resp.amount == req.amount && resp.paymentMethod == req.paymentMethod
    ensures resp.transactionId == TransactionId
  {
    PaymentResponse("success", req.orderId, req.amount, req.paymentMethod, TransactionId)
  }

  /** The request model's validation of a JSON body: the three typed fields must be present;
      other keys are ignored. */
  function DecodeRequest(body: Json): Option<PaymentRequest> {
    match body
    case JObj(f) =>
      if "order_id" in f && f["order_id"].JNum? && "amount" in f && f["amount"].JNum?
         && "method" in f && f["method"].JStr?
      then Some(PaymentRequest(f["order_id"].n, f["amount"].n, f["method"].s))
      else None
    case _ => None
  }

  /** The dictionary `create_payment` returns, as JSON. */
  function EncodeResponse(resp: PaymentResponse): Json {
    JObj(map["status" := JStr(resp.status), "order_id" := JNum(resp.orderId),
             "amount" := JNum(resp.amount), "method" := JStr(resp.paymentMethod),
             "transaction_id" := JStr(resp.transactionId)])
  }

  /** The response carries the request back: reading it as a request yields the request. */
  lemma EchoRoundTrip(req: PaymentRequest)
    ensures DecodeRequest(EncodeResponse(CreatePayment(req))) == Some(req)
  {
  }

  /** The endpoint as seen over HTTP: 200 with the echo for a valid body, and the framework's
      422 validation response otherwise. */
  function Endpoint(body: Json): (r: (int, Option<Json>))
    ensures r.0 == 200 <==> DecodeRequest(body).Some?
    ensures r.0 == 200 ==> r.1 == Some(EncodeResponse(CreatePayment(DecodeRequest(body).value)))
    ensures r.0 != 200 ==> r.0 == 422
  {
    match DecodeRequest(body)
    case Some(req) => (200, Some(EncodeResponse(CreatePayment(req))))
    case None => (422, None)
  }
}

=== FILE: shop.dfy ===
/** Records exchanged between the agents: catalog products and confirmed orders. */
module Shop {
  import opened Wrappers
  import opened Json

  /** A catalog entry; `priceCents` stands for the `priceUsd` float. */
  datatype Product = Product(id: string, name: string, priceCents: int, description: string)

  /** An entry of the order agent's `ORDERS` log, as returned under `"order"`.
      `productId` and `quantity` are copied verbatim from the request body. */
  datatype OrderEntry = OrderEntry(
    orderId: string,
    trackingId: string,
    productId: Json,
    quantity: Json,
    totalPaidCents: int,
    status: string)

  /** `[p["id"] for p in products]`. */
  function IdsOf(products: seq<Product>): (ids: seq<string>)
    ensures |ids| == |products|
    ensures forall i :: 0 <= i < |products| ==> ids[i] == products[i].id
  {
    seq(|products|, i requires 0 <= i < |products| => products[i].id)
  }

  /** A product as a JSON object, the shape the order agent serves. */
  function ProductJson(p: Product): Json {
    JObj(map["id" := JStr(p.id), "name" := JStr(p.name), "priceUsd" := JNum(p.priceCents),
             "description" := JStr(p.description)])
  }

  /** `next((p for p in products if p["id"] == id), None)`: the first product whose id
      equals the requested JSON value. */
  function FirstWithId(products: seq<Product>, id: Json): (r: Option<Product>)
    ensures r.None? <==> forall k :: 0 <= k < |products| ==> JStr(products[k].id) != id
    ensures r.Some? ==> r.value in products && JStr(r.value.id) == id
  {
    if products == [] then None
    else if JStr(products[0].id) == id then Some(products[0])
    else FirstWithId(products[1..], id)
  }

  /** The product found is the earliest match: every product before it has another id. */
  lemma {:induction false} FirstWithIdIsFirst(products: seq<Product>, id: Json)
    requires FirstWithId(products, id).Some?
    ensures exists k :: 0 <= k < |products| && products[k] == FirstWithId(products, id).value
                        && forall j :: 0 <= j < k ==> JStr(products[j].id) != id
  {
    if JStr(products[0].id) != id {
      var rest := products[1..];
      FirstWithIdIsFirst(rest, id);
      var k :| 0 <= k < |rest| && rest[k] == FirstWithId(rest, id).value
               && forall j :: 0 <= j < k ==> JStr(rest[j].id) != id;
      assert products[k + 1] == rest[k];
      forall j | 0 <= j < k + 1 ensures JStr(products[j].id) != id {
        if j > 0 {
          assert products[j] == rest[j - 1];
        }
      }
    } else {
      assert products[0] == FirstWithId(products, id).value;
    }
  }
}

=== FILE: text.dfy ===
/** The Python string operations the agents rely on, with their CPython semantics:
    `strip()`, `split()`, `split(sep)`, `' '.join`, `find`, `rfind`, `count`,
    `replace`, the `in` substring test and `lower()` (ASCII letters only). */
module Text {
  import opened Wrappers

  /** `str.isspace()` for one character: the characters `strip()` and `split()` remove. */
  predicate IsSpace(c: char) {
    c == ' ' || ('\t' <= c <= '\r') || ('\U{1c}' <= c <= '\U{1f}')
    || c == '\U{85}' || c == '\U{a0}' || c == '\U{1680}' || ('\U{2000}' <= c <= '\U{200a}')
    || c == '\U{2028}' || c == '\U{2029}' || c == '\U{202f}' || c == '\U{205f}' || c == '\U{3000}'
  }

  /** Number of whitespace characters at the front of `s`. */
  function LeadingSpace(s: string): (n: nat)
    ensures n <= |s|
    ensures forall i :: 0 <= i < n ==> IsSpace(s[i])
    ensures n < |s| ==> !IsSpace(s[n])
  {
    if |s| > 0 && IsSpace(s[0]) then 1 + LeadingSpace(s[1..]) else 0
  }

  /** Number of whitespace characters at the end of `s`. */
  function TrailingSpace(s: string): (n: nat)
    ensures n <= |s|
    ensures forall i :: |s| - n <= i < |s| ==> IsSpace(s[i])
    ensures n < |s| ==> !IsSpace(s[|s| - 1 - n])
  {
    if |s| > 0 && IsSpace(s[|s| - 1]) then 1 + TrailingSpace(s[..|s| - 1]) else 0
  }

  /** `s.strip()`: the longest slice of `s` that neither starts nor ends with whitespace,
      obtained by removing whitespace from both ends only. */
  function Strip(s: string): (r: string)
    ensures LeadingSpace(s) + |r| <= |s|
    ensures r == s[LeadingSpace(s)..LeadingSpace(s) + |r|]
    ensures r == [] || (!IsSpace(r[0]) && !IsSpace(r[|r| - 1]))
    ensures forall i :: 0 <= i < |s| && !(LeadingSpace(s) <= i < LeadingSpace(s) + |r|) ==> IsSpace(s[i])
  {
    var t := s[LeadingSpace(s)..];
    t[..|t| - TrailingSpace(t)]
  }

  /** Stripping never brings in a character. */
  lemma StripKeepsAbsentChar(s: string, c: char)
    requires c !in s
    ensures c !in Strip(s)
  {
  }

  function LowerChar(c: char): char {
    if 'A' <= c <= 'Z' then (c as int + 32) as char else c
  }

  /** `s.lower()`, restricted to the ASCII letters. */
  function Lower(s: string): string {
    seq(|s|, i requires 0 <= i < |s| => LowerChar(s[i]))
  }

  /** A non-empty run of non-whitespace characters: what `split()` yields. */
  predicate IsWord(w: string) {
    w != [] && forall i :: 0 <= i < |w| ==> !IsSpace(w[i])
  }

  /** Length of the run of non-whitespace characters at the front of `s`. */
  function WordLen(s: string): (n: nat)
    ensures n <= |s|
    ensures forall i :: 0 <= i < n ==> !IsSpace(s[i])
    ensures n < |s| ==> IsSpace(s[n])
  {
    if |s| > 0 && !IsSpace(s[0]) then 1 + WordLen(s[1..]) else 0
  }

  /** `s.split()` with no separator: the maximal runs of non-whitespace, in order. */
  function Split(s: string): (ws: seq<string>)
    ensures forall k :: 0 <= k < |ws| ==> IsWord(ws[k])
    decreases |s|
  {
    var t := s[LeadingSpace(s)..];
    if t == [] then []
    else
      var n := WordLen(t);
      assert n >= 1;
      [t[..n]] + Split(t[n..])
  }

  /** `' '.join(ws)`. */
  function Join(ws: seq<string>): string {
    if |ws| == 0 then "" else if |ws| == 1 then ws[0] else ws[0] + " " + Join(ws[1..])
  }

  lemma WordLenOfWord(w: string, rest: string)
    requires IsWord(w)
    requires rest == [] || IsSpace(rest[0])
    ensures WordLen(w + rest) == |w|
  {
    var s := w + rest;
    assert forall i :: 0 <= i < |w| ==> s[i] == w[i];
    assert |s| > |w| ==> s[|w|] == rest[0];
  }

  lemma SplitDropsLeadingSpace(c: char, s: string)
    requires IsSpace(c)
    ensures Split([c] + s) == Split(s)
  {
    assert ([c] + s)[1..] == s;
    assert LeadingSpace([c] + s) == 1 + LeadingSpace(s);
    assert ([c] + s)[LeadingSpace([c] + s)..] == s[LeadingSpace(s)..];
  }

  /** Whitespace in front of a string that does not start with whitespace is all counted. */
  lemma {:induction false} LeadingSpaceOf(g: string, r: string)
    requires forall i :: 0 <= i < |g| ==> IsSpace(g[i])
    requires r == [] || !IsSpace(r[0])
    ensures LeadingSpace(g + r) == |g|
  {
    if g == [] {
      assert g + r == r;
    } else {
      assert (g + r)[0] == g[0];
      assert (g + r)[1..] == g[1..] + r;
      LeadingSpaceOf(g[1..], r);
    }
  }

  /** `split()` gives nothing exactly for a string of whitespace only. */
  lemma SplitNothing(s: string)
    ensures Split(s) == [] <==> forall i :: 0 <= i < |s| ==> IsSpace(s[i])
  {
    var n := LeadingSpace(s);
    if n < |s| {
      assert s[n..][0] == s[n];
    }
  }

  /** `split()` skips leading whitespace, takes the whole word that follows, and goes on
      after it; with `SplitNothing` this fixes the result for every string. */
  lemma SplitFirstWord(g: string, w: string, t: string)
    requires forall i :: 0 <= i < |g| ==> IsSpace(g[i])
    requires IsWord(w)
    requires t == [] || IsSpace(t[0])
    ensures Split(g + w + t) == [w] + Split(t)
  {
    var s, r := g + w + t, w + t;
    assert s == g + r;
    assert r[0] == w[0];
    LeadingSpaceOf(g, r);
    assert s[|g|..] == r;
    WordLenOfWord(w, t);
    assert r[..|w|] == w;
    assert r[|w|..] == t;
  }

  /** Splitting a space-joined list of words gives the words back. */
  lemma {:induction false} SplitJoin(ws: seq<string>)
    requires forall k :: 0 <= k < |ws| ==> IsWord(ws[k])
    ensures Split(Join(ws)) == ws
  {
    if |ws| == 0 {
    } else if |ws| == 1 {
      var w := ws[0];
      assert LeadingSpace(w) == 0;
      WordLenOfWord(w, []);
      assert w + [] == w;
      assert w[|w|..] == [];
      assert w[LeadingSpace(w)..] == w;
    } else {
      var w, rest := ws[0], " " + Join(ws[1..]);
      var s := w + rest;
      assert Join(ws) == s;
      assert LeadingSpace(s) == 0;
      assert s[LeadingSpace(s)..] == s;
      WordLenOfWord(w, rest);
      assert s[..|w|] == w;
      assert s[|w|..] == rest;
      SplitDropsLeadingSpace(' ', Join(ws[1..]));
      SplitJoin(ws[1..]);
    }
  }

  /** Whitespace in `s` is only single ` ` characters between two non-whitespace ones. */
  predicate SingleSpaced(s: string) {
    forall i :: 0 <= i < |s| && IsSpace(s[i]) ==> s[i] == ' ' && 0 < i < |s| - 1 && !IsSpace(s[i + 1])
  }

  /** Words joined by single spaces have no other whitespace, none at either end and no two
      whitespace characters side by side. */
  lemma {:induction false} JoinSingleSpaced(ws: seq<string>)
    requires forall k :: 0 <= k < |ws| ==> IsWord(ws[k])
    ensures SingleSpaced(Join(ws))
    ensures |ws| > 0 ==> |Join(ws)| > 0 && !IsSpace(Join(ws)[0]) && !IsSpace(Join(ws)[|Join(ws)| - 1])
  {
    if |ws| > 1 {
      var w, t := ws[0], Join(ws[1..]);
      JoinSingleSpaced(ws[1..]);
      var s := Join(ws);
      assert s == w + " " + t;
      assert forall i :: 0 <= i < |w| ==> s[i] == w[i];
      assert s[|w|] == ' ' && s[|w| + 1] == t[0];
      assert forall i :: |w| < i < |s| ==> s[i] == t[i - |w| - 1];
    }
  }

  /** `s.find(c)`, with `None` for -1. */
  function Find(s: string, c: char): (r: Option<nat>)
    ensures r.Some? ==> r.value < |s| && s[r.value] == c
    ensures r.Some? ==> forall j :: 0 <= j < r.value ==> s[j] != c
    ensures r.None? ==> forall j :: 0 <= j < |s| ==> s[j] != c
  {
    if |s| == 0 then None
    else if s[0] == c then Some(0)
    else match Find(s[1..], c)
      case None => None
      case Some(i) => Some(i + 1)
  }

  /** `s.rfind(c)`, with `None` for -1. */
  function RFind(s: string, c: char): (r: Option<nat>)
    ensures r.Some? ==> r.value < |s| && s[r.value] == c
    ensures r.Some? ==> forall j :: r.value < j < |s| ==> s[j] != c
    ensures r.None? ==> forall j :: 0 <= j < |s| ==> s[j] != c
  {
    if |s| == 0 then None
    else if s[|s| - 1] == c then Some(|s| - 1)
    else RFind(s[..|s| - 1], c)
  }

  /** `s.count(c)` for a one-character argument. */
  function Count(s: string, c: char): (n: nat)
    ensures n == multiset(s)[c]
  {
    if |s| == 0 then 0
    else
      assert s == [s[0]] + s[1..];
      (if s[0] == c then 1 else 0) + Count(s[1..], c)
  }

  /** `c * n`. */
  function Repeat(c: char, n: nat): (r: string)
    ensures |r| == n && forall i :: 0 <= i < n ==> r[i] == c
  {
    if n == 0 then [] else [c] + Repeat(c, n - 1)
  }

  lemma {:induction false} CountRepeat(c: char, n: nat)
    ensures Count(Repeat(c, n), c) == n
  {
    if n > 0 {
      CountRepeat(c, n - 1);
      assert Repeat(c, n) == [c] + Repeat(c, n - 1);
      assert multiset(Repeat(c, n)) == multiset([c]) + multiset(Repeat(c, n - 1));
    }
  }

  /** `p` occurs in `s` starting at index `i`. */
  predicate OccursAt(s: string, p: string, i: int) {
    0 <= i && i + |p| <= |s| && s[i..i + |p|] == p
  }

  /** Python's `p in s`. */
  predicate Contains(s: string, p: string) {
    exists i :: 0 <= i <= |s| - |p| && OccursAt(s, p, i)
  }

  /** A slice of a string that does not contain `p` does not contain `p` either. */
  lemma SliceKeepsAbsence(s: string, a: nat, b: nat, p: string)
    requires a <= b <= |s|
    requires !Contains(s, p)
    ensures !Contains(s[a..b], p)
  {
    forall i | 0 <= i <= b - a - |p| ensures !OccursAt(s[a..b], p, i) {
      var t := s[a..b];
      var u, v := t[i..i + |p|], s[a + i..a + i + |p|];
      assert forall k :: 0 <= k < |p| ==> u[k] == v[k];
      assert u == v;
      assert !OccursAt(s, p, a + i);
    }
  }

  /** `s.replace(pat, rep)`: leftmost, non-overlapping occurrences, scanned left to right. */
  function ReplaceAll(s: string, pat: string, rep: string): string
    requires pat != []
    decreases |s|
  {
    if |s| < |pat| then s
    else if s[..|pat|] == pat then rep + ReplaceAll(s[|pat|..], pat, rep)
    else [s[0]] + ReplaceAll(s[1..], pat, rep)
  }

  /** The Markdown code fence. */
  const Fence: string := "```"

  lemma ReplaceFenceKeepsHead(s: string)
    requires |s| > 0 && s[0] != '`'
    ensures var r := ReplaceAll(s, Fence, ""); |r| > 0 && r[0] == s[0]
  {
    if |s| >= |Fence| {
      assert s[..|Fence|][0] == s[0];
    }
  }

  /** Text that does not start with a fence keeps its replaced form from starting with one. */
  lemma NoFenceAtHead(s: string)
    requires |s| >= 3 && s[..3] != Fence
    ensures !OccursAt(ReplaceAll(s, Fence, ""), Fence, 0)
  {
    var r, r' := ReplaceAll(s, Fence, ""), ReplaceAll(s[1..], Fence, "");
    assert r == [s[0]] + r';
    if s[0] == '`' {
      if s[1] != '`' {
        ReplaceFenceKeepsHead(s[1..]);
        assert r[1] != '`';
      } else {
        assert s[2] != '`' by { assert s[..3][2] == s[2]; }
        if |s[1..]| < 3 {
          assert r' == s[1..];
        } else {
          assert s[1..][..3] != Fence by { assert s[1..][..3][1] == s[2]; }
          assert r' == [s[1]] + ReplaceAll(s[2..], Fence, "");
          ReplaceFenceKeepsHead(s[2..]);
        }
        assert r[2] != '`';
      }
      if |r| >= 3 {
        assert r[..3][1] == r[1] && r[..3][2] == r[2];
      }
    } else if |r| >= 3 {
      assert r[..3][0] == r[0];
    }
  }

  /** A character put in front of fence-free text adds no fence unless one starts there. */
  lemma ConsNoFence(c: char, t: string)
    requires !Contains(t, Fence) && !OccursAt([c] + t, Fence, 0)
    ensures !Contains([c] + t, Fence)
  {
    var r := [c] + t;
    forall i | 0 < i <= |r| - 3 ensures !OccursAt(r, Fence, i) {
      assert r[i..i + 3] == t[i - 1..i + 2];
      assert !OccursAt(t, Fence, i - 1);
    }
  }

  /** Removing every "```" leaves none behind: runs of backticks shrink to at most two
      and stay separated by the characters that separated them. */
  lemma {:induction false} ReplaceRemovesFence(s: string)
    ensures !Contains(ReplaceAll(s, Fence, ""), Fence)
    decreases |s|
  {
    if |s| < 3 {
      assert ReplaceAll(s, Fence, "") == s;
    } else if s[..3] == Fence {
      assert ReplaceAll(s, Fence, "") == ReplaceAll(s[3..], Fence, "");
      ReplaceRemovesFence(s[3..]);
    } else {
      ReplaceRemovesFence(s[1..]);
      NoFenceAtHead(s);
      assert ReplaceAll(s, Fence, "") == [s[0]] + ReplaceAll(s[1..], Fence, "");
      ConsNoFence(s[0], ReplaceAll(s[1..], Fence, ""));
    }
  }

  /** `s.split(sep)` for a one-character separator: always at least one part. */
  function SplitOn(s: string, sep: char): (parts: seq<string>)
    ensures |parts| == 1 + Count(s, sep)
    ensures forall k :: 0 <= k < |parts| ==> sep !in parts[k]
    decreases |s|
  {
    match Find(s, sep)
    case None => [s]
    case Some(i) =>
      assert s == s[..i] + [s[i]] + s[i + 1..];
      assert multiset(s[..i])[sep] == 0;
      [s[..i]] + SplitOn(s[i + 1..], sep)
  }

  /** `sep.join(parts)`. */
  function JoinWith(parts: seq<string>, sep: char): string
    requires |parts| >= 1
  {
    if |parts| == 1 then parts[0] else parts[0] + [sep] + JoinWith(parts[1..], sep)
  }

  /** Joining the parts of a split with the same separator rebuilds the string. */
  lemma {:induction false} SplitOnJoin(s: string, sep: char)
    ensures JoinWith(SplitOn(s, sep), sep) == s
    decreases |s|
  {
    match Find(s, sep)
    case None =>
    case Some(i) =>
      SplitOnJoin(s[i + 1..], sep);
      assert s == s[..i] + [sep] + s[i + 1..];
  }

  /** An occurrence inside a slice is an occurrence in the whole string, shifted. */
  lemma OccursShift(s: string, a: nat, b: nat, p: string, j: nat)
    requires a <= b <= |s| && j + |p| <= b - a
    ensures OccursAt(s[a..b], p, j) <==> OccursAt(s, p, a + j)
  {
    var u, v := s[a..b][j..j + |p|], s[a + j..a + j + |p|];
    assert forall k :: 0 <= k < |p| ==> u[k] == v[k];
    assert u == v;
  }

  /** An occurrence of `p` covering index `i` puts the character at `i` into `p`. */
  lemma CoveredCharInPattern(s: string, p: string, j: nat, i: nat)
    requires OccursAt(s, p, j) && j <= i < j + |p|
    ensures s[i] in p
  {
    assert s[j..j + |p|][i - j] == s[i];
  }

  /** `split` at the first separator: the text before it, then the split of the rest. */
  lemma SplitOnFirst(s: string, sep: char, i: nat)
    requires Find(s, sep) == Some(i)
    ensures SplitOn(s, sep) == [s[..i]] + SplitOn(s[i + 1..], sep)
    ensures SplitOn(s, sep)[0] == s[..i]
    ensures forall k :: 0 < k < |SplitOn(s, sep)| ==> SplitOn(s, sep)[k] == SplitOn(s[i + 1..], sep)[k - 1]
  {
    ConsParts(SplitOn(s, sep), s[..i], SplitOn(s[i + 1..], sep));
  }

  /** Indexing a list built as a head followed by the rest. */
  lemma ConsParts(parts: seq<string>, head: string, rest: seq<string>)
    requires parts == [head] + rest
    ensures parts[0] == head && forall k :: 0 < k < |parts| ==> parts[k] == rest[k - 1]
  {
  }

  /** `s[i + 1..j]` is the text between the first separator of `s`, at `i`, and the next
      one, at `j`, or the end of `s` when there is no second one. */
  predicate SecondField(s: string, sep: char, i: int, j: int) {
    0 <= i < j <= |s| && s[i] == sep && sep !in s[..i] && sep !in s[i + 1..j]
    && (j == |s| || s[j] == sep)
  }

  /** The first part of a split runs up to the first separator, or is the whole string. */
  lemma FirstPartBound(s: string, sep: char) returns (j: nat)
    ensures j <= |s| && sep !in s[..j] && (j == |s| || s[j] == sep)
    ensures SplitOn(s, sep)[0] == s[..j]
  {
    match Find(s, sep)
    case None =>
      j := |s|;
      assert s[..j] == s;
    case Some(i) =>
      j := i;
      SplitOnFirst(s, sep, i);
  }

  /** The second part of a split is the text between the first two separators. */
  lemma SplitOnSecond(s: string, sep: char)
    requires sep in s
    ensures |SplitOn(s, sep)| >= 2
    ensures exists i, j :: SecondField(s, sep, i, j) && SplitOn(s, sep)[1] == s[i + 1..j]
  {
    var i := Find(s, sep).value;
    SplitOnFirst(s, sep, i);
    var j' := FirstPartBound(s[i + 1..], sep);
    FieldAfterFirst(s, sep, i, j');
  }

  /** A stretch without separators right after the first one, ended by a separator or the
      end, is the second field. */
  lemma FieldAfterFirst(s: string, sep: char, i: nat, j': nat)
    requires Find(s, sep) == Some(i) && j' <= |s| - i - 1
    requires sep !in s[i + 1..][..j'] && (j' == |s| - i - 1 || s[i + 1..][j'] == sep)
    ensures SecondField(s, sep, i, i + 1 + j') && s[i + 1..][..j'] == s[i + 1..i + 1 + j']
  {
    var j := i + 1 + j';
    assert s[i + 1..][..j'] == s[i + 1..j];
  }

  /** The joined part that holds a given occurrence of a separator-free pattern. */
  lemma {:induction false} PartOfJoin(parts: seq<string>, sep: char, p: string, j: nat) returns (k: nat)
    requires |parts| >= 1 && sep !in p && OccursAt(JoinWith(parts, sep), p, j)
    ensures k < |parts| && Contains(parts[k], p)
    decreases |parts|
  {
    if |parts| == 1 {
      k := 0;
    } else {
      var head, rest := parts[0], JoinWith(parts[1..], sep);
      var t := head + [sep] + rest;
      assert JoinWith(parts, sep) == t;
      if j + |p| <= |head| {
        assert t[0..|head|] == head;
        OccursShift(t, 0, |head|, p, j);
        k := 0;
      } else if j > |head| {
        assert t[|head| + 1..|t|] == rest;
        OccursShift(t, |head| + 1, |t|, p, j - |head| - 1);
        var k' := PartOfJoin(parts[1..], sep, p, j - |head| - 1);
        k := k' + 1;
        assert parts[1..][k'] == parts[k];
      } else {
        assert t[|head|] == sep;
        CoveredCharInPattern(t, p, j, |head|);
        assert false;
      }
    }
  }

  /** An occurrence of a separator-free pattern lies inside one part of the split: no
      occurrence can straddle a separator. */
  lemma ContainsInPart(s: string, sep: char, p: string)
    requires sep !in p && Contains(s, p)
    ensures exists k :: 0 <= k < |SplitOn(s, sep)| && Contains(SplitOn(s, sep)[k], p)
  {
    var j :| 0 <= j <= |s| - |p| && OccursAt(s, p, j);
    SplitOnJoin(s, sep);
    var k := PartOfJoin(SplitOn(s, sep), sep, p, j);
  }

  /** An occurrence in the text before index `i` is an occurrence in the whole string. */
  lemma OccursInPrefix(s: string, p: string, i: nat, j: nat)
    requires i <= |s| && OccursAt(s[..i], p, j)
    ensures OccursAt(s, p, j)
  {
    assert s[0..i] == s[..i];
    OccursShift(s, 0, i, p, j);
  }

  /** An occurrence in the text from index `i` on is an occurrence in the whole string. */
  lemma OccursInSuffix(s: string, p: string, i: nat, m: nat)
    requires i <= |s| && OccursAt(s[i..], p, m)
    ensures OccursAt(s, p, i + m)
  {
    assert s[i..|s|] == s[i..];
    OccursShift(s, i, |s|, p, m);
  }

  /** Where an occurrence inside one of the joined parts lies in the join. */
  lemma {:induction false} OccurrenceInJoin(parts: seq<string>, sep: char, p: string, k: nat, j: nat)
    returns (m: nat)
    requires k < |parts| && OccursAt(parts[k], p, j)
    ensures OccursAt(JoinWith(parts, sep), p, m)
    decreases |parts|
  {
    if |parts| == 1 {
      m := j;
    } else {
      var head, rest := parts[0], JoinWith(parts[1..], sep);
      var t := head + [sep] + rest;
      assert JoinWith(parts, sep) == t;
      if k == 0 {
        assert t[..|head|] == head;
        OccursInPrefix(t, p, |head|, j);
        m := j;
      } else {
        assert parts[1..][k - 1] == parts[k];
        var m' := OccurrenceInJoin(parts[1..], sep, p, k - 1, j);
        assert t[|head| + 1..] == rest;
        OccursInSuffix(t, p, |head| + 1, m');
        m := |head| + 1 + m';
      }
    }
  }

  /** An occurrence inside a part of a split is an occurrence in the whole string. */
  lemma PartInContains(s: string, sep: char, p: string, k: nat)
    requires k < |SplitOn(s, sep)| && Contains(SplitOn(s, sep)[k], p)
    ensures Contains(s, p)
  {
    var j :| 0 <= j <= |SplitOn(s, sep)[k]| - |p| && OccursAt(SplitOn(s, sep)[k], p, j);
    SplitOnJoin(s, sep);
    var m := OccurrenceInJoin(SplitOn(s, sep), sep, p, k, j);
  }

  function DigitChar(d: nat): char
    requires d < 10
  {
    "0123456789"[d]
  }

  /** `str(n)` for an integer. */
  function IntToString(n: int): string {
    if n < 0 then "-" + NatToString(-n) else NatToString(n)
  }

  function NatToString(n: nat): string {
    if n < 10 then [DigitChar(n)] else NatToString(n / 10) + [DigitChar(n % 10)]
  }
}

=== FILE: wrappers.dfy ===
/** Option and Result, the failure-carrying values used across the model. */
module Wrappers {
  datatype Option<+T> = None | Some(value: T)

  datatype Result<+R, +E> = Success(value: R) | Failure(error: E)
}
